=== FILE: README.md ===
# flex-timer timers in Dafny

This project models the timing core of flex-timer, a React Native workout
timer app. It covers:

- the four timer screens: TABATA, EMOM, AMRAP and For Time;
- the MIX screen, which chains timers of those kinds;
- the number picker that offers the values the user configures them with;
- the background-aware interval controller.

Each screen keeps its state in React state variables. A handler reads the
snapshot captured when the screen was drawn and issues setters. Here each
handler is a pure function from that snapshot to the snapshot after its
setters have been applied. An update of the form `r => r + 1` applies to
the value left by the updates before it. When a workout ends, the screen
resets and calls `onComplete`. This is modelled as the reset state plus a
`completed` flag (`Common.Outcome`).

Text fields hold strings. `startTimer` reads them with `parseInt`, so a
start takes `Option<int>` fields, where `None` stands for NaN.
`Text.ParseInt` is a reference for JavaScript's base-ten `parseInt`, and
`Text.FormatTime` for the screens' `M:SS` clock.

Modules:

| module | models |
|---|---|
| `Common` | `Option`, `Outcome`, the ten-second countdown, whole seconds of a millisecond span |
| `Text` | `String(n)`, `parseInt`, `formatTime` |
| `Tabata` | `src/components/TABATA.tsx` |
| `Emom` | `src/components/EMOM.tsx` |
| `Amrap` | `src/components/AMRAP.tsx` |
| `ForTime` | `src/components/ForTime.tsx` |
| `Mix` | `src/components/MIX.tsx` |
| `NumberPicker` | `src/components/common/NumberPicker.tsx` |
| `BackgroundTimer` | `src/utils/backgroundTimer.ts` |

Each timer module has an invariant `Inv` that its handlers preserve. The
invariant ties the running flag, the countdown, the phase and the bounds
on round and remaining time together. It also has the facts that connect
several handlers. AMRAP completes after exactly the countdown plus its
duration. MIX ends after one completion per timer, and its up and down
move arrows undo each other. After `cleanup`, the background listener is
silent.

## Model

| member | source | states |
|---|---|---|
| Common.WholeSeconds | src/components/EMOM.tsx:178 | the whole seconds of a millisecond span are the floor: `s*1000 <= ms < (s+1)*1000` |
| Text.NatToString | src/components/MIX.tsx:60 | the decimal text of a number is all digits, has no leading zero and denotes the number |
| Text.IntToString | src/components/MIX.tsx:60 | a negative number prints as a minus sign followed by the text of its magnitude |
| Text.ParseIntOfIntToString | src/components/TABATA.tsx:218-231 | `parseInt` reads back exactly the number that `toString` wrote into a field |
| Text.TwoDigits | src/components/TABATA.tsx:78-79 | the seconds are padded to exactly two digits that denote them |
| Text.FormatTime | src/components/TABATA.tsx:76-80 | the `M:SS` text reads back, as minutes and seconds, as the number of seconds formatted, and its minutes have no leading zero |
| Text.ClockTextIsFormatTime | src/components/TABATA.tsx:76-80 | any text that reads back as `t` seconds with minutes free of a leading zero is exactly the text the screens print for `t` |
| Text.CanonicalDigits | src/components/TABATA.tsx:76-80 | digits without a leading zero are the `String` of their value, so the minutes are printed one way only |
| Tabata.Initial | src/components/TABATA.tsx:15-32 | the mounted state satisfies the invariant for every valid configuration |
| Tabata.Reset | src/components/TABATA.tsx:83-96 | reset gives an idle timer in round one with a full work phase and countdown, satisfying the invariant |
| Tabata.ResetForgetsHistory | src/components/TABATA.tsx:83-96 | reset ignores the state it is applied to, so it is idempotent |
| Tabata.Start | src/components/TABATA.tsx:233-258 | start succeeds iff all three fields parse to positive numbers; the started timer is in the countdown and satisfies the invariant |
| Tabata.Pause | src/components/TABATA.tsx:260-270 | pause toggles only once the countdown is over, and keeps the invariant |
| Tabata.CountdownTick | src/components/TABATA.tsx:113-129 | the countdown drops by one and stops at zero; reaching zero switches to work; nothing else changes |
| Tabata.PhaseTick | src/components/TABATA.tsx:134-174 | a phase counts down to zero and then switches; the workout completes iff the last round's rest is at zero |
| Tabata.Tick | src/components/TABATA.tsx:102-177 | a tick keeps the invariant, never lowers the round, and completes only at the end of the last rest |
| Tabata.Cascade | src/components/TABATA.tsx:273-334 | the background phase walk finishes iff it starts resting in the last round; otherwise it lands in the other phase with at least 2 seconds left |
| Tabata.HandleAppForeground | src/components/TABATA.tsx:337-423 | the foreground catch-up takes a short absence off the countdown or the phase, and keeps the invariant's shape; it completes only from the last rest |
| Tabata.CascadeOvershootsRounds | src/components/TABATA.tsx:273-334 | with 8 rounds of 5 s phases, 23 s away from round 7's rest lands in round 12 and breaks the invariant |
| Tabata.CascadeCorrected | src/components/TABATA.tsx:273-334 | the corrected walk keeps the round within `rounds` and lands with at least 2 seconds left |
| Tabata.CascadeCorrectedReachesEnd | src/components/TABATA.tsx:273-334 | the corrected walk ends the workout exactly when the absence, plus the one second the last rest shows, covers the workout still ahead |
| Tabata.RemainingIsProduct | src/components/TABATA.tsx:273-334 | the workout still ahead at the end of a phase is every later round's work and rest, plus this round's rest when in work |
| Tabata.CascadeCorrectedDone | src/components/TABATA.tsx:273-334 | the corrected walk returns Done iff `t + 1 >= (rounds - round) * (work + rest)`, plus `rest` when it starts in work: after the last rest, never before |
| Tabata.CorrectedCascadeFinishes | src/components/TABATA.tsx:273-334 | with 8 rounds of 5 s phases, 23 s away with 3 s of the seventh rest left completes the workout under the correction |
| Tabata.HandleAppForegroundCorrected | src/components/TABATA.tsx:337-423 | the corrected foreground catch-up keeps the full invariant, the round bound included |
| Tabata.HandleAppForegroundCorrectedCompletes | src/components/TABATA.tsx:337-423 | the corrected catch-up completes iff the absence covers the rest of the countdown or phase and every round still ahead, less the last rest's final second |
| Emom.Initial | src/components/EMOM.tsx:23-29 | the mounted state satisfies the invariant for every valid configuration |
| Emom.GetDisplayUnit | src/components/EMOM.tsx:53-56 | the unit is "MIN" iff the text parses to at least sixty, otherwise "SEC" |
| Emom.FormatDisplayValue | src/components/EMOM.tsx:100-108 | from sixty seconds on, the display is the clock text of the parsed value (so the one `M:SS` spelling); below it the text is shown unchanged |
| Emom.DisplayOfPickedValue | src/components/EMOM.tsx:53-108 | for a picked number, the display is `M:SS`/"MIN" from sixty on and the plain number/"SEC" below |
| Emom.Reset | src/components/EMOM.tsx:118-129 | reset gives an idle round one with a full interval and countdown, satisfying the invariant |
| Emom.Start | src/components/EMOM.tsx:131-150 | start succeeds iff rounds and interval parse to positive numbers; the started timer satisfies the invariant |
| Emom.HandleCirclePress | src/components/EMOM.tsx:152-160 | the press toggles the pause only for a running timer past its countdown, and keeps the invariant |
| Emom.ExerciseTick | src/components/EMOM.tsx:336-365 | the last second of the last round completes; the last second of an earlier round starts the next with a full interval |
| Emom.Tick | src/components/EMOM.tsx:318-376 | a tick keeps the invariant and never lowers the round |
| Emom.TimeLeft | src/components/EMOM.tsx:236-239 | the time left in the interval reached lies in [1, interval] and, added to the time elapsed, makes a whole number of intervals |
| Emom.HandleAppForeground | src/components/EMOM.tsx:163-290 | the foreground catch-up keeps the invariant and, as written, never completes |
| Emom.CatchUpCountdown | src/components/EMOM.tsx:185-244 | the countdown absorbs the absence first; after a full interval the round is the number of whole intervals elapsed plus one, clamped to `rounds`, and the time left is the interval less the part of one already elapsed |
| Emom.CatchUpExercise | src/components/EMOM.tsx:245-288 | a short absence shortens the interval; a longer one advances by the whole intervals it spans, clamped to `rounds`, and the time left is the interval less the part of one already elapsed |
| Emom.ForegroundMissesCompletion | src/components/EMOM.tsx:214-232 | 5 rounds of 60 s, away 400 s from the countdown's start: the workout ran out after 310 s, yet the timer resumes in round 5 with 30 s left |
| Emom.HandleAppForegroundCorrected | src/components/EMOM.tsx:163-290 | the corrected catch-up completes iff the absence covers all the remaining time, and keeps the invariant |
| Emom.CatchUpCountdownCorrected | src/components/EMOM.tsx:185-244 | from the countdown, it completes iff the absence covers the countdown plus every interval |
| Emom.CatchUpExerciseCorrected | src/components/EMOM.tsx:245-288 | mid-workout, it completes iff the absence covers the seconds left in the current interval plus every later round |
| Amrap.Initial | src/components/AMRAP.tsx:22-31 | the mounted state is idle, in interval mode, and satisfies the invariant |
| Amrap.ToggleInfiniteMode | src/components/AMRAP.tsx:289-292 | the mode flips only while idle, keeping the invariant |
| Amrap.Reset | src/components/AMRAP.tsx:113-127 | reset gives an idle full work phase with no elapsed time, keeps the mode, and satisfies the invariant |
| Amrap.Start | src/components/AMRAP.tsx:129-155 | start succeeds iff infinite mode has a positive duration, or interval mode a positive work and rest; the first phase is the whole duration or one work phase |
| Amrap.Pause | src/components/AMRAP.tsx:104-111 | pause toggles only once the countdown is over, and keeps the invariant |
| Amrap.HandleNextPhase | src/components/AMRAP.tsx:157-169 | in interval mode after the countdown, it skips to the start of the other phase and leaves the elapsed total alone |
| Amrap.PhaseTick | src/components/AMRAP.tsx:217-253 | the phase counts down; at its last second infinite mode completes and interval mode switches phase |
| Amrap.ElapsedTick | src/components/AMRAP.tsx:255-271 | the elapsed total completes iff it reaches the duration in seconds; a NaN duration never completes |
| Amrap.Tick | src/components/AMRAP.tsx:201-282 | a tick keeps the invariant, and completes iff the duration ran out (infinite) or the total reached it (interval) |
| Amrap.Run | src/components/AMRAP.tsx:201-282 | running ticks for `n` seconds keeps the invariant |
| Amrap.RunSplit | src/components/AMRAP.tsx:201-282 | ticking `a` then `b` seconds is ticking `a + b` seconds |
| Amrap.RunCountdown | src/components/AMRAP.tsx:212-215 | the countdown takes exactly its remaining seconds |
| Amrap.RunInfinite | src/components/AMRAP.tsx:217-253 | in infinite mode the clock runs down one second per tick |
| Amrap.InfiniteWorkoutLength | src/components/AMRAP.tsx:129-282 | a started infinite AMRAP completes after exactly ten plus 60 times the duration ticks, and not earlier |
| Amrap.RunIntervals | src/components/AMRAP.tsx:255-271 | in interval mode each second adds one to the elapsed total, whatever the phases do |
| Amrap.IntervalWorkoutLength | src/components/AMRAP.tsx:129-282 | a started interval AMRAP completes after exactly ten plus 60 times the duration ticks, and not earlier |
| ForTime.Initial | src/components/ForTime.tsx:15-24 | the mounted state satisfies the invariant for every configuration |
| ForTime.Reset | src/components/ForTime.tsx:106-120 | reset gives idle round one at time zero with a full countdown |
| ForTime.Start | src/components/ForTime.tsx:85-103 | start succeeds iff rounds and rest parse to positive numbers; the started timer satisfies the invariant |
| ForTime.Pause | src/components/ForTime.tsx:123-130 | pause toggles only for a running timer past its countdown, keeping the invariant |
| ForTime.EndRest | src/components/ForTime.tsx:228-246 | the end of a rest completes iff it is the last round; otherwise the next round's work starts at zero |
| ForTime.HandleNextPhase | src/components/ForTime.tsx:133-157 | a skip ends work by starting the rest, or ends the rest early; it keeps the invariant |
| ForTime.Tick | src/components/ForTime.tsx:193-267 | work counts up, rest counts down; a tick completes iff it ends the last round's rest, and keeps the invariant |
| ForTime.SkipAtEndOfRestIsTick | src/components/ForTime.tsx:133-246 | skipping the last second of a rest equals letting it run out |
| ForTime.SkipTwiceStartsNextRound | src/components/ForTime.tsx:133-157 | two skips from a non-final work phase give the next round's work at zero |
| ForTime.SkipTwiceInLastRoundCompletes | src/components/ForTime.tsx:133-157 | two skips from the last round's work complete the workout |
| Mix.TypeName | src/components/MIX.tsx:21-27 | each kind's label is non-empty and has no dash, so an id splits at its first dash |
| Mix.Initial | src/components/MIX.tsx:37-40 | the screen mounts configuring an empty sequence |
| Mix.AddTimer | src/components/MIX.tsx:55-64 | an uncompleted item is appended; its id is the kind's label, a dash, and text that parses back to the clock reading |
| Mix.RemoveAt | src/components/MIX.tsx:66-68 | removing an index in range shortens the list by one; any other index leaves it unchanged |
| Mix.FilterIndexIsRemoveAt | src/components/MIX.tsx:66-68 | the positional filter equals removing that one index |
| Mix.RemoveTimer | src/components/MIX.tsx:66-68 | removal is the filter by index and changes nothing but the sequence |
| Mix.SpliceStart | src/components/MIX.tsx:73-74 | the splice start is clamped to the list, and in-range starts are kept |
| Mix.Insert | src/components/MIX.tsx:74 | inserting puts the item at the position and shifts the later items up by one |
| Mix.RemoveInserted | src/components/MIX.tsx:73-74 | removing what was just inserted gives the list back |
| Mix.InsertRemoved | src/components/MIX.tsx:73-74 | putting a removed item back where it was gives the list back |
| Mix.Move | src/components/MIX.tsx:70-77 | a move is a permutation; the moved item lands at the clamped target, and removing it leaves the rest in order |
| Mix.MoveBack | src/components/MIX.tsx:137-150 | moving an item back where it came from restores the list |
| Mix.MoveTimer | src/components/MIX.tsx:70-77 | reordering permutes the sequence and keeps the invariant |
| Mix.ClearCompleted | src/components/MIX.tsx:88 | every completed flag is cleared, item by item |
| Mix.StartSequence | src/components/MIX.tsx:79-89 | start is refused iff the sequence is empty; otherwise it runs from the first timer with no timer completed |
| Mix.ResetSequence | src/components/MIX.tsx:91-96 | reset gives an empty configuring screen |
| Mix.HandleTimerComplete | src/components/MIX.tsx:98-113 | completion marks the current timer and advances, or ends the sequence after the last one; progress is kept |
| Mix.Blur | src/components/MIX.tsx:45-53 | leaving the screen stops the run and rewinds to the first timer, keeping the list |
| Mix.CompleteAll | src/components/MIX.tsx:98-113 | after `k` completions the first `k` timers are exactly those marked |
| Mix.SequenceEndsAfterEveryTimer | src/components/MIX.tsx:79-113 | a started sequence of `n` timers ends after exactly `n` completions |
| NumberPicker.StepRange | src/components/common/NumberPicker.tsx:48-53 | the stepped list is empty iff `min > max`; otherwise it starts at `min` and stops at the last value not above `max` |
| NumberPicker.StepRangeValues | src/components/common/NumberPicker.tsx:48-53 | the stepped list has `min + k*step` at position `k` |
| NumberPicker.StepRangeAscending | src/components/common/NumberPicker.tsx:48-53 | the stepped list is strictly ascending and lies in [min, max] |
| NumberPicker.AddIfMissing | src/components/common/NumberPicker.tsx:62-64 | the `includes` test appends a value at most once: afterwards it is the last value and the list stays ascending |
| NumberPicker.OnTierIsCongruent | src/components/common/NumberPicker.tsx:57-79 | a tier loop visits exactly the numbers in [lo, hi] that lie a whole number of steps past lo |
| NumberPicker.AppendTierOrdered | src/components/common/NumberPicker.tsx:57-79 | a tier extends the list without duplicates, stays ascending, and adds only values in the tier |
| NumberPicker.AppendTierHas | src/components/common/NumberPicker.tsx:57-79 | after a tier the list holds exactly its old values and every value the tier loop visits |
| NumberPicker.AppendTierWithin | src/components/common/NumberPicker.tsx:57-79 | a tier inside [min, max] keeps the list inside |
| NumberPicker.TierHi | src/components/common/NumberPicker.tsx:57-79 | a tier never runs past `max` |
| NumberPicker.AppendTiers | src/components/common/NumberPicker.tsx:57-79 | the tiers together give an ascending list inside [min, max] |
| NumberPicker.AppendTiersHas | src/components/common/NumberPicker.tsx:57-79 | after all tiers the list holds exactly its old values and every value some tier, clipped to [min, max], visits |
| NumberPicker.AppendTiersNone | src/components/common/NumberPicker.tsx:57-79 | tiers that all start above `max` add nothing |
| NumberPicker.AppendTiersSome | src/components/common/NumberPicker.tsx:57-79 | a tier starting within `max` adds a value |
| NumberPicker.Tiers | src/components/common/NumberPicker.tsx:57-79 | the tiered list is ascending and inside [min, max] |
| NumberPicker.TiersEmpty | src/components/common/NumberPicker.tsx:57-79 | the tiers offer nothing iff `max` is below five or `min` is above `max` |
| NumberPicker.WithEndpoints | src/components/common/NumberPicker.tsx:82-90 | a non-empty list gains `min` in front and `max` at the end, staying ascending |
| NumberPicker.WithEndpointsHas | src/components/common/NumberPicker.tsx:82-88 | the endpoints add exactly `min` and `max` to a non-empty list, and nothing to an empty one |
| NumberPicker.GenerateValues | src/components/common/NumberPicker.tsx:44-91 | the values are ascending and in [min, max]; the list is empty iff min > max or, without a step, max < 5 (a negative step is accepted only when min > max); a stepped list starts at `min` and stops within one step of `max`, and a tiered list runs from `min` to `max` |
| NumberPicker.Stepped | src/components/common/NumberPicker.tsx:48-53 | with a positive step, the values are ascending, in [min, max], and empty iff `min > max` |
| NumberPicker.SteppedValues | src/components/common/NumberPicker.tsx:48-53 | with a step, the `k`-th value offered is `min + k*step` |
| NumberPicker.Tiered | src/components/common/NumberPicker.tsx:55-90 | without a step, the values are ascending, empty iff max < 5 or min > max, and otherwise run from `min` to `max` |
| NumberPicker.TieredValues | src/components/common/NumberPicker.tsx:55-90 | without a step, the values offered are exactly `min`, `max`, and the multiples of 5 s from 5 to 60, of 10 s from 60 to 120, of 15 s from 120 to 300, of 30 s from 300 to 600 and of 60 s from 600, clipped to [min, max]; none when max < 5 or min > max |
| NumberPicker.FindClosestValueIndex | src/components/common/NumberPicker.tsx:93-112 | the index of the value when offered, otherwise the first index of a nearest value; 0 for an empty list |
| NumberPicker.HandleScroll | src/components/common/NumberPicker.tsx:130-138 | the selection becomes the value at the scrolled-to row, or stays when there is none |
| NumberPicker.FormatTimeValue | src/components/common/NumberPicker.tsx:149-156 | from a minute in time mode the label is the clock text of the value; otherwise it is `String(value)`, which reads back as the value and never as a clock |
| NumberPicker.NoColonInIntToString | src/components/common/NumberPicker.tsx:155 | `String` of an integer never reads as a clock |
| NumberPicker.GetDisplayUnit | src/components/common/NumberPicker.tsx:159-164 | unless the picker's own unit is "MIN", the unit is "MIN" exactly when `formatTimeValue`'s label reads as a clock |
| BackgroundTimer.Create | src/utils/backgroundTimer.ts:10-31 | a new controller is inactive, unscheduled and listening |
| BackgroundTimer.CatchUpTicks | src/utils/backgroundTimer.ts:47-56 | the ticks replayed are the whole intervals elapsed, at most sixty, and none for a negative span |
| BackgroundTimer.Replay | src/utils/backgroundTimer.ts:54-56 | a callback that stops or pauses its controller within the calls leaves it stopped or paused and unscheduled; one that does not leaves it unchanged |
| BackgroundTimer.IntervalFires | src/utils/backgroundTimer.ts:113-117 | a scheduled interval records the tick and calls the callback once, which may stop or pause the controller |
| BackgroundTimer.Start | src/utils/backgroundTimer.ts:94-120 | start is ignored while active; otherwise every timestamp is `now`, the pause total is cleared and the interval scheduled |
| BackgroundTimer.Stop | src/utils/backgroundTimer.ts:123-136 | an active controller stops, unpaused and unscheduled, with its mode cleared; an inactive one is left as it is, even with an interval still scheduled; neither is running afterwards |
| BackgroundTimer.Pause | src/utils/backgroundTimer.ts:139-153 | only an active, unpaused controller pauses; it records when and unschedules |
| BackgroundTimer.Resume | src/utils/backgroundTimer.ts:156-175 | only a paused controller resumes; the pause is added to the total and the interval rescheduled |
| BackgroundTimer.ChangeMode | src/utils/backgroundTimer.ts:178-181 | only the mode label changes |
| BackgroundTimer.OnAppStateChange | src/utils/backgroundTimer.ts:31-91 | going to the background unschedules; coming back replays the capped missed ticks of an unpaused controller and reschedules unless the callback paused it; a callback that stops it leaves an interval scheduled on a stopped controller; a paused controller only records its return, keeping its pause start and total; otherwise nothing but the timestamps and the schedule changes; inactive controllers ignore changes |
| BackgroundTimer.CheckElapsedTime | src/utils/backgroundTimer.ts:184-203 | a running controller more than one interval behind replays 1 to 60 ticks, with whatever the callback did to it, and records the tick; it reports the gap |
| BackgroundTimer.IsRunningFollowsOperations | src/utils/backgroundTimer.ts:239 | `isRunning` holds whenever an interval is scheduled under the invariant, after `start` and `resumeTimer`, and never after `stop`, `pauseTimer` or `cleanup` |
| BackgroundTimer.GetStatus | src/utils/backgroundTimer.ts:206-214 | elapsed time plus time paused equals the time since start |
| BackgroundTimer.Cleanup | src/utils/backgroundTimer.ts:217-229 | cleanup leaves the controller inactive, unscheduled and no longer listening |
| BackgroundTimer.CleanupSilencesListener | src/utils/backgroundTimer.ts:31-34 | after cleanup no app state change has any effect |
| BackgroundTimer.BackgroundRoundTrip | src/utils/backgroundTimer.ts:38-91 | leaving and coming back replays one tick per whole interval away, at most sixty, and reschedules with the tick at the return time |
| BackgroundTimer.StopDuringReplayLeavesInterval | src/utils/backgroundTimer.ts:54-75 | a callback that stops the controller during the replay leaves an interval firing on the stopped controller, which a later `stop` does not clear and `cleanup` does |
| BackgroundTimer.PauseIsNotCounted | src/utils/backgroundTimer.ts:139-214 | a finished pause is left out of the reported elapsed time |
| BackgroundTimer.StatusWhilePaused | src/utils/backgroundTimer.ts:139-214 | during a pause the reported elapsed time still advances with the clock |

## Left out

- Sounds (`src/utils/sound.ts`), alerts, colours, styles, JSX rendering and logging are not modelled. They do not affect timer state.
- Real timers are not modelled. `setInterval`, `setTimeout`, `Date.now()` and `AppState` are replaced by explicit tick and foreground calls and a `now` parameter.
- The 100 ms delay before a completed workout resets is modelled as an immediate reset.
- `AppStateHandler.tsx`, `App.tsx`, `Home.tsx`, `ErrorBoundary.tsx`, navigation, types and theme are not part of this model.
- `openNumberPicker` and `handlePickerConfirm` are not modelled. They only write `String(n)` of a picked whole number into a field, and `Text.ParseIntOfIntToString` covers what `startTimer` reads back.
- The MIX child timer that renders the current item is not modelled. Only its `onComplete` edge, `Mix.HandleTimerComplete`, is.
- NaN configuration fields after a timer has started are not modelled. The fields only hold picker output or the decimal defaults, so handlers other than start take integer settings.
- `parseInt` skips only space, tab, CR and LF. Other Unicode white space is not modelled.
- `Text.ParseInt` reads base ten only. Without a radix, JavaScript's `parseInt` reads a `0x` prefix as hexadecimal (`"0x10"` is 16, not 0). The fields only ever hold picker output and decimal defaults.
- The scroll offset's `Math.round(y / ITEM_HEIGHT)` is not modelled. `NumberPicker.HandleScroll` takes the row.
- Tabata.Cascade: requires both phases to last at least three seconds. With a two-second phase the source recurses forever on the same argument. The picker offers five seconds at least.
- Tabata.HandleAppForeground: guarantees only the invariant's shape (`ShapeInv`), not the round bound, because the round bound does not hold (see Findings).
- Emom.HandleAppForeground: requires a valid configuration. The source only gets there after a successful start.
- Mix.HandleTimerComplete: the invariant is stated for a running screen only. While configuring no timer is on screen to complete.
- Mix.Move: requires `from` to name an item, as both move arrows ensure. For an out-of-range `from`, JavaScript's `splice` inserts `undefined`.
- NumberPicker.GenerateValues: requires a non-negative step unless `min > max`. With a negative `stepValue` and `min <= max` the source loop never ends; with `min > max` it never runs and the model returns the empty list.
- BackgroundTimer.OnAppStateChange: requires a positive interval. With an interval of zero the source divides by zero.
- The default interval of 1000 ms (`src/utils/backgroundTimer.ts:10`) is not modelled. The interval is a parameter of each operation that reads it.
- Re-entry from the background timer callback is limited: the callback is modelled as leaving its controller alone, or calling `stop` or `pauseTimer` once, at the clock reading of the replay. A callback that calls `start`, `resumeTimer` or `changeMode`, or several of them, is not modelled.
- Tick-by-tick and background catch-up are not proved equivalent, because for TABATA and EMOM they are not (see Findings).

## Findings

| source | as written | input that shows it | evidently intended | confidence | as-written member | corrected member |
|---|---|---|---|---|---|---|
| src/components/TABATA.tsx:273-334 | the background phase walk recurses with the captured `isResting` and `currentRound`, and each rest-to-work step queues another `r => r + 1` | 8 rounds of 5 s work and 5 s rest, round 7 resting with 3 s left, 23 s in the background: the timer resumes in round 12 of 8 | each step starts from the phase and round the previous one reached, ending the workout after the last rest | not executed | Tabata.CascadeOvershootsRounds | Tabata.CascadeCorrected |
| src/components/EMOM.tsx:214-232 | the reached round is clamped with `Math.min(rounds, …)` before the `newRound > rounds` test, so the test never holds (also lines 262-278) | 5 rounds of 60 s, 400 s in the background from the countdown's start: the workout ran out at 310 s, but the timer resumes in round 5 with 30 s left | compare the unclamped round with `rounds` and complete the workout | not executed | Emom.ForegroundMissesCompletion | Emom.HandleAppForegroundCorrected |

=== FILE: amrap.dfy ===
/** The AMRAP timer ("as many rounds as possible"). In interval mode it
    alternates work and rest until the total duration has elapsed; in
    infinite mode it is a single countdown of the total duration. */
module Amrap {
  import opened Common

  /** Settings after `parseInt`. The total duration (minutes) is only
      validated in infinite mode, so in interval mode it may be NaN. */
  datatype Config = Config(duration: Option<int>, work: int, rest: int)

  datatype State = State(
    currentTime: int,
    elapsedTime: int,
    isRunning: bool,
    isResting: bool,
    countdown: int,
    isPaused: bool,
    isInfiniteMode: bool)

  /** What `startTimer` checks for the chosen mode. */
  predicate ValidFor(cfg: Config, infinite: bool)
  {
    if infinite then Positive(cfg.duration) else cfg.work > 0 && cfg.rest > 0
  }

  /** Length of the phase the timer is in. */
  function PhaseLength(cfg: Config, s: State): int
    requires s.isInfiniteMode ==> cfg.duration.Some?
  {
    if s.isInfiniteMode then cfg.duration.value * 60
    else if s.isResting then cfg.rest
    else cfg.work
  }

  predicate Inv(cfg: Config, s: State)
  {
    && 0 <= s.countdown <= COUNTDOWN
    && (s.isPaused ==> s.countdown == 0)
    && (!s.isRunning ==> !s.isPaused && !s.isResting && s.countdown == COUNTDOWN && s.elapsedTime == 0)
    && (s.isRunning ==>
          && ValidFor(cfg, s.isInfiniteMode)
          && (s.isInfiniteMode ==> !s.isResting && s.elapsedTime == 0)
          && (s.countdown > 0 ==> !s.isResting && s.elapsedTime == 0 && s.currentTime == PhaseLength(cfg, s))
          && (s.countdown == 0 ==> 1 <= s.currentTime <= PhaseLength(cfg, s))
          && 0 <= s.elapsedTime
          && (cfg.duration.Some? && s.elapsedTime > 0 ==> s.elapsedTime < cfg.duration.value * 60))
  }

  /** The state the component mounts with (work "30"). */
  function Initial(): (s: State)
    ensures forall cfg: Config :: Inv(cfg, s)
    ensures !s.isRunning && !s.isInfiniteMode
  {
    State(30, 0, false, false, COUNTDOWN, false, false)
  }

  /** The mode button, only on screen while the timer is idle. */
  function ToggleInfiniteMode(s: State): (r: State)
    ensures !s.isRunning ==> r == s.(isInfiniteMode := !s.isInfiniteMode)
    ensures s.isRunning ==> r == s
    ensures forall cfg: Config :: Inv(cfg, s) ==> Inv(cfg, r)
  {
    if s.isRunning then s else s.(isInfiniteMode := !s.isInfiniteMode)
  }

  /** `resetTimer`: back to an idle work phase; the mode is kept. */
  function Reset(cfg: Config, s: State): (r: State)
    ensures Inv(cfg, r)
    ensures !r.isRunning && r.currentTime == cfg.work && r.elapsedTime == 0
    ensures r.isInfiniteMode == s.isInfiniteMode
  {
    s.(isRunning := false, isPaused := false, currentTime := cfg.work,
       elapsedTime := 0, countdown := COUNTDOWN, isResting := false)
  }

  /** `startTimer`: infinite mode needs a positive duration, interval mode a
      positive work and rest time (the duration is not checked). The first
      phase is the whole duration, or one work phase. */
  function Start(duration: Option<int>, work: Option<int>, rest: Option<int>, s: State): (r: Option<State>)
    ensures r.Some? <==> if s.isInfiniteMode then Positive(duration) else Positive(work) && Positive(rest)
    ensures r.Some? && s.isInfiniteMode ==>
      && r.value.currentTime == duration.value * 60
      && (work.Some? && rest.Some? ==> Inv(Config(duration, work.value, rest.value), r.value))
    ensures r.Some? && !s.isInfiniteMode ==>
      && r.value.currentTime == work.value
      && Inv(Config(duration, work.value, rest.value), r.value)
    ensures r.Some? ==>
      && r.value.isRunning && !r.value.isPaused && !r.value.isResting
      && r.value.countdown == COUNTDOWN && r.value.elapsedTime == 0
      && r.value.isInfiniteMode == s.isInfiniteMode
  {
    if s.isInfiniteMode && !Positive(duration) then None
    else if !s.isInfiniteMode && (!Positive(work) || !Positive(rest)) then None
    else
      var time := if s.isInfiniteMode then duration.value * 60 else work.value;
      Some(s.(isRunning := true, currentTime := time, elapsedTime := 0,
              isPaused := false, countdown := COUNTDOWN, isResting := false))
  }

  /** `pauseTimer`: toggles the pause once the countdown is over. */
  function Pause(s: State): (r: State)
    ensures s.countdown == 0 ==> r == s.(isPaused := !s.isPaused)
    ensures s.countdown != 0 ==> r == s
    ensures forall cfg: Config :: Inv(cfg, s) ==> Inv(cfg, r)
  {
    if s.countdown == 0 then s.(isPaused := !s.isPaused) else s
  }

  /** `handleNextPhase`: in interval mode, after the countdown, skip to the
      start of the other phase; the elapsed total is not touched. */
  function HandleNextPhase(cfg: Config, s: State): (r: State)
    ensures s.isRunning && s.countdown == 0 && !s.isInfiniteMode ==>
      && r.isResting == !s.isResting
      && r.currentTime == (if s.isResting then cfg.work else cfg.rest)
      && r == s.(isResting := r.isResting, currentTime := r.currentTime)
    ensures !(s.isRunning && s.countdown == 0 && !s.isInfiniteMode) ==> r == s
    ensures Inv(cfg, s) ==> Inv(cfg, r)
  {
    if s.isRunning && s.countdown == 0 && !s.isInfiniteMode then
      s.(isResting := !s.isResting, currentTime := if !s.isResting then cfg.rest else cfg.work)
    else s
  }

  /** The phase clock of one exercise second: the end of the duration in
      infinite mode, a switch to the other phase in interval mode. */
  function PhaseTick(cfg: Config, s: State): (r: Outcome<State>)
    requires s.isInfiniteMode ==> cfg.duration.Some?
    ensures r.completed <==> s.isInfiniteMode && s.currentTime <= 1
    ensures s.currentTime > 1 ==> r.next == s.(currentTime := s.currentTime - 1)
    ensures !s.isInfiniteMode && s.currentTime <= 1 ==>
      r.next == s.(isResting := !s.isResting, currentTime := if s.isResting then cfg.work else cfg.rest)
  {
    var prev := s.currentTime;
    if prev <= 1 then
      if s.isInfiniteMode then Outcome(s.(currentTime := 0), true)
      else if s.isResting then Outcome(s.(isResting := false, currentTime := cfg.work), false)
      else Outcome(s.(isResting := true, currentTime := cfg.rest), false)
    else Outcome(s.(currentTime := prev - 1), false)
  }

  /** The elapsed clock of one exercise second in interval mode: it ends the
      workout on reaching the total duration; a NaN duration never does. */
  function ElapsedTick(cfg: Config, s: State): (r: Outcome<State>)
    ensures r.completed <==> cfg.duration.Some? && s.elapsedTime + 1 >= cfg.duration.value * 60
    ensures !r.completed ==> r.next == s.(elapsedTime := s.elapsedTime + 1)
  {
    var newTime := s.elapsedTime + 1;
    if cfg.duration.Some? && newTime >= cfg.duration.value * 60 then
      Outcome(s.(elapsedTime := cfg.duration.value * 60), true)
    else Outcome(s.(elapsedTime := newTime), false)
  }

  /** One second of a running, unpaused timer: the countdown while it lasts,
      then both clocks; a completion from either resets the timer. */
  function Tick(cfg: Config, s: State): (r: Outcome<State>)
    requires Inv(cfg, s)
    ensures !s.isRunning || s.isPaused ==> r == Outcome(s, false)
    ensures s.isRunning && !s.isPaused && s.countdown > 0 ==> r == Outcome(s.(countdown := s.countdown - 1), false)
    ensures s.isRunning && !s.isPaused && s.countdown == 0 ==>
      (r.completed <==>
         if s.isInfiniteMode then s.currentTime <= 1
         else cfg.duration.Some? && s.elapsedTime + 1 >= cfg.duration.value * 60)
    ensures r.completed ==> r.next == Reset(cfg, s)
    ensures Inv(cfg, r.next)
  {
    if !s.isRunning || s.isPaused then Outcome(s, false)
    else if s.countdown > 0 then Outcome(s.(countdown := s.countdown - 1), false)
    else
      var phase := PhaseTick(cfg, s);
      if s.isInfiniteMode then
        if phase.completed then Outcome(Reset(cfg, s), true) else phase
      else
        var elapsed := ElapsedTick(cfg, phase.next);
        if elapsed.completed then Outcome(Reset(cfg, s), true) else elapsed
  }

  /** `n` seconds of ticking, stopping at the first completion. */
  function Run(cfg: Config, s: State, n: nat): (r: Outcome<State>)
    requires Inv(cfg, s)
    ensures Inv(cfg, r.next)
    decreases n
  {
    if n == 0 then Outcome(s, false)
    else
      var o := Tick(cfg, s);
      if o.completed then o else Run(cfg, o.next, n - 1)
  }

  /** Ticking `a` seconds and then `b` more is ticking `a + b` seconds. */
  lemma {:induction false} RunSplit(cfg: Config, s: State, a: nat, b: nat)
    requires Inv(cfg, s)
    requires !Run(cfg, s, a).completed
    ensures Run(cfg, s, a + b) == Run(cfg, Run(cfg, s, a).next, b)
    decreases a
  {
    if a > 0 {
      RunSplit(cfg, Tick(cfg, s).next, a - 1, b);
    }
  }

  /** The countdown takes exactly its remaining seconds. */
  lemma {:induction false} RunCountdown(cfg: Config, s: State, m: nat)
    requires Inv(cfg, s) && s.isRunning && !s.isPaused
    ensures Run(cfg, s, s.countdown + m) == Run(cfg, s.(countdown := 0), m)
    decreases s.countdown
  {
    if s.countdown > 0 {
      var next := s.(countdown := s.countdown - 1);
      assert Tick(cfg, s) == Outcome(next, false);
      assert s.countdown + m - 1 == next.countdown + m;
      RunCountdown(cfg, next, m);
      assert next.(countdown := 0) == s.(countdown := 0);
    }
  }

  /** In infinite mode the clock runs down one second per tick. */
  lemma {:induction false} RunInfinite(cfg: Config, s: State, m: nat)
    requires Inv(cfg, s) && s.isRunning && !s.isPaused && s.isInfiniteMode && s.countdown == 0
    ensures Run(cfg, s, s.currentTime - 1 + m) == Run(cfg, s.(currentTime := 1), m)
    decreases s.currentTime
  {
    if s.currentTime > 1 {
      var next := s.(currentTime := s.currentTime - 1);
      assert Tick(cfg, s) == Outcome(next, false);
      RunInfinite(cfg, next, m);
      assert next.(currentTime := 1) == s.(currentTime := 1);
    }
  }

  /** A started infinite AMRAP completes after exactly the countdown plus
      its duration in seconds, and not a second earlier. */
  lemma InfiniteWorkoutLength(cfg: Config, s: State)
    requires Inv(cfg, s) && s.isRunning && !s.isPaused && s.isInfiniteMode && s.countdown == COUNTDOWN
    ensures !Run(cfg, s, COUNTDOWN + cfg.duration.value * 60 - 1).completed
    ensures Run(cfg, s, COUNTDOWN + cfg.duration.value * 60).completed
  {
    var exercising := s.(countdown := 0);
    var last := exercising.(currentTime := 1);
    var d := cfg.duration.value * 60;
    RunCountdown(cfg, s, d - 1);
    RunInfinite(cfg, exercising, 0);
    RunCountdown(cfg, s, d);
    RunInfinite(cfg, exercising, 1);
    assert Tick(cfg, last).completed;
  }

  /** In interval mode each exercise second adds one to the elapsed total,
      whatever the phases do, until the total duration is reached. */
  lemma {:induction false} RunIntervals(cfg: Config, s: State, k: nat)
    requires Inv(cfg, s) && s.isRunning && !s.isPaused && !s.isInfiniteMode && s.countdown == 0
    requires cfg.duration.Some? && s.elapsedTime + k < cfg.duration.value * 60
    ensures var r := Run(cfg, s, k);
      && !r.completed && r.next.elapsedTime == s.elapsedTime + k
      && r.next.isRunning && !r.next.isPaused && !r.next.isInfiniteMode && r.next.countdown == 0
    decreases k
  {
    if k > 0 {
      RunIntervals(cfg, Tick(cfg, s).next, k - 1);
    }
  }

  /** A started interval AMRAP with a positive duration completes after
      exactly the countdown plus its duration in seconds. */
  lemma IntervalWorkoutLength(cfg: Config, s: State)
    requires Inv(cfg, s) && s.isRunning && !s.isPaused && !s.isInfiniteMode && s.countdown == COUNTDOWN
    requires Positive(cfg.duration)
    ensures !Run(cfg, s, COUNTDOWN + cfg.duration.value * 60 - 1).completed
    ensures Run(cfg, s, COUNTDOWN + cfg.duration.value * 60).completed
  {
    var exercising := s.(countdown := 0);
    var d := cfg.duration.value * 60;
    RunCountdown(cfg, s, d - 1);
    RunIntervals(cfg, exercising, d - 1);
    RunCountdown(cfg, s, d);
    RunSplit(cfg, exercising, d - 1, 1);
    var last := Run(cfg, exercising, d - 1).next;
    assert Run(cfg, last, 1) == Tick(cfg, last);
  }
}

=== FILE: backgroundtimer.dfy ===
/** The background-aware interval timer: a controller that calls a callback
    once per interval while active and unpaused, stops its interval while
    the app is in the background, and on return calls the callback once per
    missed interval, at most sixty times. The clock reading `now` is a
    parameter of every operation that reads it, and each operation reports
    how many times it called the callback. */
module BackgroundTimer {
  import opened Common

  /** At most this many missed ticks are replayed at once. */
  const MAX_CATCH_UP_TICKS: int := 60

  datatype AppState = Active | Background | Inactive

  /** The controller's closure variables. `intervalSet` is whether an
      interval is scheduled (`timerId` not null); `listening` is whether the
      app state listener is still registered. */
  datatype Timer = Timer(
    startTimestamp: int,
    lastTickTimestamp: int,
    lastForegroundTimestamp: int,
    backgroundEnterTimestamp: int,
    isActive: bool,
    isPaused: bool,
    pauseStartTimestamp: int,
    totalPausedTime: int,
    currentMode: string,
    intervalSet: bool,
    listening: bool)

  /** The state after an operation and how many times it called the
      callback. */
  datatype Step = Step(next: Timer, ticks: nat)

  /** What the callback does to its own controller while being called: it
      may leave it alone, or on its `call`-th call (counting from one) call
      `stop` or `pauseTimer(mode)`. The callback runs synchronously inside
      the controller's loops, so such a call changes the state the rest of
      the loop's caller goes on to read. */
  datatype Reentry = Inert | StopsAt(call: nat) | PausesAt(call: nat, mode: string)

  /** Whether a callback that behaves as `e` acts within `n` calls. */
  predicate ActsWithin(e: Reentry, n: nat)
  {
    !e.Inert? && 1 <= e.call <= n
  }

  datatype Status = Status(
    isActive: bool,
    isPaused: bool,
    currentMode: string,
    elapsedSinceStart: int,
    totalPausedTime: int)

  /** An interval is scheduled only for an active, unpaused timer, and only
      an active timer can be paused. */
  predicate Inv(t: Timer)
  {
    && (t.intervalSet ==> t.isActive && !t.isPaused)
    && (t.isPaused ==> t.isActive)
  }

  function Create(): (t: Timer)
    ensures Inv(t) && !t.isActive && t.listening && !t.intervalSet
  {
    Timer(0, 0, 0, 0, false, false, 0, 0, "", false, true)
  }

  /** How many missed ticks a catch-up replays for `elapsed` milliseconds:
      the whole intervals that fit, capped at sixty, none for a negative
      span. */
  function CatchUpTicks(elapsed: int, interval: int): (n: nat)
    requires interval > 0
    ensures n <= MAX_CATCH_UP_TICKS
    ensures n == 0 || n * interval <= elapsed
    ensures n < MAX_CATCH_UP_TICKS && elapsed >= 0 ==> elapsed < (n + 1) * interval
  {
    var missedTicks := elapsed / interval;
    DivBounds(elapsed, interval);
    Max(0, Min(missedTicks, MAX_CATCH_UP_TICKS))
  }

  lemma DivBounds(a: int, b: int)
    requires b > 0
    ensures (a / b) * b <= a < (a / b + 1) * b
  {
  }

  /** The controller after `n` back-to-back calls of a callback that
      behaves as `e`, all at the clock reading `now`. The calls go on after
      a stop or a pause: a loop's bound is fixed before it starts. */
  function Replay(t: Timer, n: nat, e: Reentry, now: int): (r: Timer)
    ensures !ActsWithin(e, n) ==> r == t
    ensures ActsWithin(e, n) && e.StopsAt? ==> !r.isActive && (t.isActive ==> !r.intervalSet)
    ensures ActsWithin(e, n) && e.PausesAt? ==> !IsRunning(r)
    ensures ActsWithin(e, n) && e.PausesAt? && IsRunning(t) ==>
      r.isPaused && !r.intervalSet && r.pauseStartTimestamp == now && r.currentMode == e.mode
    ensures Inv(t) ==> Inv(r)
    ensures r.lastTickTimestamp == t.lastTickTimestamp && r.backgroundEnterTimestamp == t.backgroundEnterTimestamp
  {
    if !ActsWithin(e, n) then t
    else match e
      case StopsAt(_) => Stop(t)
      case PausesAt(_, mode) => Pause(t, mode, now)
  }

  /** One firing of the scheduled interval: the tick time is recorded and
      the callback called once. */
  function IntervalFires(t: Timer, now: int, e: Reentry): (r: Step)
    ensures t.intervalSet ==> r == Step(Replay(t.(lastTickTimestamp := now), 1, e, now), 1)
    ensures !t.intervalSet ==> r == Step(t, 0)
    ensures Inv(t) ==> Inv(r.next)
  {
    if t.intervalSet then Step(Replay(t.(lastTickTimestamp := now), 1, e, now), 1) else Step(t, 0)
  }

  /** `start`: ignored while active; otherwise every timestamp is set to
      `now`, the pause total cleared and the interval scheduled. */
  function Start(t: Timer, mode: string, now: int): (r: Timer)
    ensures t.isActive ==> r == t
    ensures !t.isActive ==>
      && r.isActive && !r.isPaused && r.intervalSet && r.currentMode == mode
      && r.startTimestamp == now && r.lastTickTimestamp == now && r.lastForegroundTimestamp == now
      && r.backgroundEnterTimestamp == 0 && r.totalPausedTime == 0
      && r.pauseStartTimestamp == t.pauseStartTimestamp && r.listening == t.listening
    ensures Inv(t) ==> Inv(r)
  {
    if t.isActive then t
    else t.(currentMode := mode, startTimestamp := now, lastTickTimestamp := now,
            lastForegroundTimestamp := now, backgroundEnterTimestamp := 0,
            totalPausedTime := 0, isActive := true, isPaused := false, intervalSet := true)
  }

  /** `stop`: an active timer becomes inactive, unpaused and unscheduled. */
  function Stop(t: Timer): (r: Timer)
    ensures !t.isActive ==> r == t
    ensures t.isActive ==>
      r == t.(isActive := false, isPaused := false, currentMode := "", intervalSet := false)
    ensures !IsRunning(r)
    ensures Inv(t) ==> Inv(r)
  {
    if !t.isActive then t
    else t.(isActive := false, isPaused := false, currentMode := "", intervalSet := false)
  }

  /** `pauseTimer`: only an active, unpaused timer pauses; it remembers when
      and stops its interval. */
  function Pause(t: Timer, mode: string, now: int): (r: Timer)
    ensures !t.isActive || t.isPaused ==> r == t
    ensures t.isActive && !t.isPaused ==>
      r == t.(currentMode := mode, isPaused := true, pauseStartTimestamp := now, intervalSet := false)
    ensures Inv(t) ==> Inv(r)
  {
    if !t.isActive || t.isPaused then t
    else t.(currentMode := mode, isPaused := true, pauseStartTimestamp := now, intervalSet := false)
  }

  /** `resumeTimer`: only a paused timer resumes; the pause is added to the
      total and the interval scheduled again. */
  function Resume(t: Timer, mode: string, now: int): (r: Timer)
    ensures !t.isActive || !t.isPaused ==> r == t
    ensures t.isActive && t.isPaused ==>
      && r.totalPausedTime == t.totalPausedTime + (now - t.pauseStartTimestamp)
      && r.lastTickTimestamp == now && !r.isPaused && r.intervalSet && r.currentMode == mode
      && r.startTimestamp == t.startTimestamp && r.isActive
    ensures Inv(t) ==> Inv(r)
  {
    if !t.isActive || !t.isPaused then t
    else t.(currentMode := mode, totalPausedTime := t.totalPausedTime + (now - t.pauseStartTimestamp),
            lastTickTimestamp := now, isPaused := false, intervalSet := true)
  }

  /** `changeMode`: only the label changes. */
  function ChangeMode(t: Timer, mode: string): (r: Timer)
    ensures r.currentMode == mode && r == t.(currentMode := r.currentMode)
    ensures Inv(t) ==> Inv(r)
  {
    t.(currentMode := mode)
  }

  /** The app state listener. Going to the background records the time and
      stops the interval; coming back replays the missed ticks of an
      unpaused timer and then, if the timer is not paused at that point,
      schedules the interval again. An inactive timer, or one whose listener
      was removed, ignores every change. */
  function OnAppStateChange(t: Timer, nextAppState: AppState, interval: int, now: int, e: Reentry): (r: Step)
    requires interval > 0
    ensures !t.listening || !t.isActive || nextAppState == Inactive ==> r == Step(t, 0)
    ensures t.listening && t.isActive && nextAppState == Background ==>
      r == Step(t.(backgroundEnterTimestamp := now, intervalSet := false), 0)
    ensures t.listening && t.isActive && nextAppState == Active ==>
      && r.ticks == (if t.backgroundEnterTimestamp > 0 && !t.isPaused
                     then CatchUpTicks(now - t.backgroundEnterTimestamp, interval) else 0)
      && (!ActsWithin(e, r.ticks) ==>
            && (!t.isPaused ==> r.next.intervalSet)
            && (t.isPaused ==> r.next.intervalSet == t.intervalSet))
      && (t.backgroundEnterTimestamp > 0 ==>
            r.next.backgroundEnterTimestamp == 0 && r.next.lastForegroundTimestamp == now)
      && (t.backgroundEnterTimestamp > 0 && !t.isPaused ==> r.next.lastTickTimestamp == now)
    ensures t.listening && t.isActive && nextAppState == Active && ActsWithin(e, r.ticks) ==>
      && (e.StopsAt? ==> !r.next.isActive && r.next.intervalSet)
      && (e.PausesAt? ==> r.next.isPaused && !r.next.intervalSet)
    ensures Inv(t) && !(e.StopsAt? && ActsWithin(e, r.ticks)) ==> Inv(r.next)
    // Nothing else changes: a paused timer only records its return, so its
    // pause start and total are kept for `getStatus`.
    ensures t.listening && t.isActive && nextAppState == Active && t.isPaused ==>
      r == Step(if t.backgroundEnterTimestamp > 0
                then t.(backgroundEnterTimestamp := 0, lastForegroundTimestamp := now) else t, 0)
    ensures t.listening && t.isActive && nextAppState == Active && !t.isPaused && !ActsWithin(e, r.ticks) ==>
      r.next == (if t.backgroundEnterTimestamp > 0
                 then t.(lastTickTimestamp := now, backgroundEnterTimestamp := 0, lastForegroundTimestamp := now)
                 else t).(intervalSet := true)
    ensures t.listening && t.isActive && nextAppState == Active && !t.isPaused && ActsWithin(e, r.ticks) ==>
      && (e.StopsAt? ==> r.next == Stop(t).(lastTickTimestamp := now, backgroundEnterTimestamp := 0,
                                            lastForegroundTimestamp := now, intervalSet := true))
      && (e.PausesAt? ==> r.next == Pause(t, e.mode, now).(lastTickTimestamp := now, backgroundEnterTimestamp := 0,
                                                           lastForegroundTimestamp := now))
  {
    if !t.listening || !t.isActive then Step(t, 0)
    else
      match nextAppState
      case Active =>
        var caughtUp :=
          if t.backgroundEnterTimestamp > 0 then
            var timeInBackground := now - t.backgroundEnterTimestamp;
            var ticks := if !t.isPaused then CatchUpTicks(timeInBackground, interval) else 0;
            var replayed := Replay(t, ticks, e, now);
            var ticked := if !t.isPaused then replayed.(lastTickTimestamp := now) else replayed;
            Step(ticked.(backgroundEnterTimestamp := 0, lastForegroundTimestamp := now), ticks)
          else Step(t, 0);
        if !caughtUp.next.isPaused then Step(caughtUp.next.(intervalSet := true), caughtUp.ticks) else caughtUp
      case Background =>
        Step(t.(backgroundEnterTimestamp := now, intervalSet := false), 0)
      case Inactive =>
        Step(t, 0)
  }

  /** What `checkElapsedTime` hands back: the milliseconds since the last
      tick (zero when not running), the state and the ticks replayed. */
  datatype Check = Check(next: Timer, ticks: nat, elapsed: int)

  /** `checkElapsedTime`: a running timer more than an interval behind
      replays its missed ticks (at most sixty) and records the tick. */
  function CheckElapsedTime(t: Timer, interval: int, now: int, e: Reentry): (r: Check)
    requires interval > 0
    ensures !IsRunning(t) ==> r == Check(t, 0, 0)
    ensures IsRunning(t) ==> r.elapsed == now - t.lastTickTimestamp
    ensures IsRunning(t) && r.elapsed < interval ==> r.next == t && r.ticks == 0
    ensures IsRunning(t) && r.elapsed >= interval ==>
      && 1 <= r.ticks <= MAX_CATCH_UP_TICKS
      && r.ticks == CatchUpTicks(r.elapsed, interval)
      && r.next == Replay(t, r.ticks, e, now).(lastTickTimestamp := now)
    ensures Inv(t) ==> Inv(r.next)
  {
    if !t.isActive || t.isPaused then Check(t, 0, 0)
    else
      var elapsed := now - t.lastTickTimestamp;
      if elapsed >= interval then
        assert elapsed / interval >= 1 by { DivBounds(elapsed, interval); }
        var ticks := CatchUpTicks(elapsed, interval);
        Check(Replay(t, ticks, e, now).(lastTickTimestamp := now), ticks, elapsed)
      else Check(t, 0, elapsed)
  }

  /** `getStatus`: the time since start less the time spent in finished
      pauses. */
  function GetStatus(t: Timer, now: int): (r: Status)
    ensures r.elapsedSinceStart + r.totalPausedTime == now - t.startTimestamp
    ensures r.isActive == t.isActive && r.isPaused == t.isPaused && r.currentMode == t.currentMode
    ensures r.totalPausedTime == t.totalPausedTime
  {
    Status(t.isActive, t.isPaused, t.currentMode, now - t.startTimestamp - t.totalPausedTime, t.totalPausedTime)
  }

  /** `isRunning`. */
  predicate IsRunning(t: Timer)
  {
    t.isActive && !t.isPaused
  }

  /** How `isRunning` follows the operations: a scheduled interval means the
      timer runs; `start` of an inactive timer and `resumeTimer` of a paused
      one make it run; `stop`, `pauseTimer` and `cleanup` make it stop. */
  lemma IsRunningFollowsOperations(t: Timer, mode: string, now: int)
    ensures Inv(t) && t.intervalSet ==> IsRunning(t)
    ensures !t.isActive ==> IsRunning(Start(t, mode, now))
    ensures t.isActive && t.isPaused ==> IsRunning(Resume(t, mode, now))
    ensures !IsRunning(Stop(t)) && !IsRunning(Pause(t, mode, now)) && !IsRunning(Cleanup(t))
    ensures IsRunning(ChangeMode(t, mode)) == IsRunning(t)
  {
  }

  /** `cleanup`: unschedules the interval, removes the listener, and leaves
      the timer inactive. */
  function Cleanup(t: Timer): (r: Timer)
    ensures !r.isActive && !r.isPaused && !r.intervalSet && !r.listening && r.currentMode == ""
    ensures Inv(r)
  {
    t.(intervalSet := false, listening := false, isActive := false, isPaused := false, currentMode := "")
  }

  /** After cleanup no app state change has any effect. */
  lemma CleanupSilencesListener(t: Timer, nextAppState: AppState, interval: int, now: int)
    requires interval > 0
    ensures forall e: Reentry :: OnAppStateChange(Cleanup(t), nextAppState, interval, now, e) == Step(Cleanup(t), 0)
  {
  }

  /** Going to the background at `left` and coming back at `back` replays
      one tick per whole interval spent away, at most sixty, and leaves the
      interval scheduled with the tick recorded at `back`. */
  lemma {:induction false} BackgroundRoundTrip(t: Timer, interval: int, left: int, back: int)
    requires interval > 0 && Inv(t) && t.listening && IsRunning(t)
    requires 0 < left <= back
    ensures var away := OnAppStateChange(t, Background, interval, left, Inert);
      var home := OnAppStateChange(away.next, Active, interval, back, Inert);
      && away.ticks == 0 && !away.next.intervalSet
      && home.ticks == Min((back - left) / interval, MAX_CATCH_UP_TICKS)
      && home.next == t.(lastTickTimestamp := back, lastForegroundTimestamp := back,
                         backgroundEnterTimestamp := 0, intervalSet := true)
  {
    var away := OnAppStateChange(t, Background, interval, left, Inert);
    assert away.next == t.(backgroundEnterTimestamp := left, intervalSet := false);
    assert (back - left) / interval >= 0;
    var home := OnAppStateChange(away.next, Active, interval, back, Inert);
    assert home.ticks == CatchUpTicks(back - left, interval);
  }

  /** A callback that stops its own controller during the replay of missed
      ticks does not keep the interval from being scheduled again: the
      controller comes back stopped but with an interval firing, a later
      `stop` leaves it there, and only `cleanup` removes it. */
  lemma {:induction false} StopDuringReplayLeavesInterval(t: Timer, interval: int, left: int, back: int)
    requires interval > 0 && Inv(t) && t.listening && IsRunning(t)
    requires 0 < left && left + interval <= back
    ensures var away := OnAppStateChange(t, Background, interval, left, StopsAt(1));
      var home := OnAppStateChange(away.next, Active, interval, back, StopsAt(1));
      && home.ticks >= 1
      && !home.next.isActive && home.next.intervalSet && !Inv(home.next)
      && Stop(home.next) == home.next
      && IntervalFires(home.next, back + interval, Inert) == Step(home.next.(lastTickTimestamp := back + interval), 1)
      && !Cleanup(home.next).intervalSet
  {
    var away := OnAppStateChange(t, Background, interval, left, StopsAt(1));
    assert away.next == t.(backgroundEnterTimestamp := left, intervalSet := false);
    DivBounds(back - left, interval);
    assert (back - left) / interval >= 1;
    var home := OnAppStateChange(away.next, Active, interval, back, StopsAt(1));
    assert home.ticks == CatchUpTicks(back - left, interval) >= 1;
  }

  /** A pause from `paused` to `resumed` is left out of the elapsed time:
      measured at `later`, the timer reports what it reported when paused
      plus the time since it resumed. */
  lemma PauseIsNotCounted(t: Timer, paused: int, resumed: int, later: int)
    requires IsRunning(t)
    ensures var r := Resume(Pause(t, "pause", paused), "work", resumed);
      GetStatus(r, later).elapsedSinceStart == GetStatus(t, paused).elapsedSinceStart + (later - resumed)
  {
  }

  /** While paused, the reported elapsed time still advances with the clock:
      the running pause is only subtracted once it ends. */
  lemma StatusWhilePaused(t: Timer, mode: string, paused: int, later: int)
    requires IsRunning(t)
    ensures var p := Pause(t, mode, paused);
      GetStatus(p, later).elapsedSinceStart == GetStatus(t, paused).elapsedSinceStart + (later - paused)
  {
  }
}

=== FILE: common.dfy ===
/** Small shared vocabulary of the timer model: optional values, the outcome
    of a handler, integer helpers and the lead-in length every mode uses. */
module Common {

  /** `Some(v)` for a value that is present, `None` for a missing one; a text
      field that `parseInt` cannot read (JavaScript's NaN) is `None`. */
  datatype Option<+T> = None | Some(value: T)

  /** What a handler hands back: the snapshot after every setter of the call
      has been applied, and whether the workout was reported complete. */
  datatype Outcome<S> = Outcome(next: S, completed: bool)

  /** Length in seconds of the "get ready" countdown that precedes the first
      work phase in every mode. */
  const COUNTDOWN: int := 10

  /** Milliseconds in a second, the divisor of every background adjustment. */
  const MILLIS_PER_SECOND: int := 1000

  function Max(a: int, b: int): (m: int)
    ensures m >= a && m >= b
    ensures m == a || m == b
  {
    if a >= b then a else b
  }

  function Min(a: int, b: int): (m: int)
    ensures m <= a && m <= b
    ensures m == a || m == b
  {
    if a <= b then a else b
  }

  /** `Math.abs`. */
  function Abs(x: int): (a: nat)
    ensures a == x || a == -x
  {
    if x < 0 then -x else x
  }

  /** The validation every start handler performs on a parsed text field:
      `!v || v <= 0` rejects NaN, zero and negative values alike. */
  predicate Positive(field: Option<int>)
  {
    field.Some? && field.value > 0
  }

  /** Whole seconds spent in the background: `Math.floor(ms / 1000)`.
      Dafny's division by a positive divisor already rounds toward minus
      infinity, as `Math.floor` does, also for a negative `ms`. */
  function WholeSeconds(ms: int): (s: int)
    ensures s * MILLIS_PER_SECOND <= ms < (s + 1) * MILLIS_PER_SECOND
  {
    ms / MILLIS_PER_SECOND
  }

  /** Quotient and remainder are unique: whatever splits `n` into `q` whole
      `b`s and a remainder in [0, b) is what `/` and `%` compute. */
  lemma DivModUnique(n: int, b: int, q: int, r: int)
    requires b > 0 && 0 <= r < b && n == q * b + r
    ensures n / b == q && n % b == r
  {
    var d := q - n / b;
    assert n == (n / b) * b + n % b;
    assert d * b == n % b - r;
    if d >= 1 {
      MulAtLeast(d, b);
    } else if d <= -1 {
      MulAtLeast(-d, b);
    }
  }

  lemma MulAtLeast(d: int, b: int)
    requires b > 0 && d >= 1
    ensures d * b >= b
  {
    assert d * b == (d - 1) * b + b;
    assert (d - 1) * b >= 0;
  }
}

=== FILE: emom.dfy ===
/** The EMOM timer ("every minute on the minute"): a ten-second countdown,
    then `rounds` back-to-back intervals of the same length, with no rest
    phase. Handlers map the captured snapshot to the next one. */
module Emom {
  import opened Common
  import opened Text

  /** The interval the timer currently drives (`modeRef`). The live countdown
      never moves it to `Exercise`; only the background adjustment does. */
  datatype Mode = Idle | Countdown | Exercise

  /** Settings after `parseInt`: number of rounds and interval seconds. */
  datatype Config = Config(rounds: int, interval: int)

  datatype State = State(
    currentRound: int,
    currentTime: int,
    isRunning: bool,
    countdown: int,
    isPaused: bool,
    mode: Mode)

  predicate ValidConfig(cfg: Config)
  {
    cfg.rounds > 0 && cfg.interval > 0
  }

  /** An idle timer waits in round one with a full countdown; a running one
      counts down the lead-in in round one, then stays in an interval whose
      remaining time lies in [1, interval] and whose round lies in
      [1, rounds]. */
  predicate Inv(cfg: Config, s: State)
  {
    && ValidConfig(cfg)
    && 1 <= s.currentRound <= cfg.rounds
    && 0 <= s.countdown <= COUNTDOWN
    && (!s.isRunning ==>
          s.mode == Idle && !s.isPaused && s.countdown == COUNTDOWN && s.currentRound == 1)
    && (s.isRunning ==> s.mode != Idle)
    && (s.isPaused ==> s.countdown == 0)
    && (s.mode == Exercise ==> s.countdown == 0)
    && (s.isRunning && s.countdown > 0 ==> s.currentRound == 1 && s.currentTime == cfg.interval)
    && (s.isRunning && s.countdown == 0 ==> 1 <= s.currentTime <= cfg.interval)
  }

  /** The state the component mounts with (default interval "60"). */
  function Initial(): (s: State)
    ensures forall cfg: Config :: ValidConfig(cfg) ==> Inv(cfg, s)
  {
    State(1, 60, false, COUNTDOWN, false, Idle)
  }

  /** `getDisplayUnit`: "MIN" when the text reads as a number of at least
      sixty seconds, "SEC" otherwise (NaN included). */
  function GetDisplayUnit(timeStr: string): (unit: string)
    ensures unit == "MIN" <==> ParseInt(timeStr).Some? && ParseInt(timeStr).value >= 60
    ensures unit == "MIN" || unit == "SEC"
  {
    var value := ParseInt(timeStr);
    if value.Some? && value.value >= 60 then "MIN" else "SEC"
  }

  /** `formatDisplayValue`: a value of at least sixty seconds as `M:SS`,
      anything else as it was typed. */
  function FormatDisplayValue(timeStr: string): (r: string)
    ensures ParseInt(timeStr).Some? && ParseInt(timeStr).value >= 60 ==>
      IsClockText(r, ParseInt(timeStr).value)
    ensures !(ParseInt(timeStr).Some? && ParseInt(timeStr).value >= 60) ==> r == timeStr
  {
    var value := ParseInt(timeStr);
    if value.Some? && value.value >= 60 then FormatTime(value.value) else timeStr
  }

  /** On the text of a whole number of seconds, as the picker writes it, the
      field shows `M:SS` and "MIN" from sixty seconds on, and the plain
      number and "SEC" below. */
  lemma DisplayOfPickedValue(n: nat)
    ensures n >= 60 ==> FormatDisplayValue(NatToString(n)) == FormatTime(n) && GetDisplayUnit(NatToString(n)) == "MIN"
    ensures n < 60 ==> FormatDisplayValue(NatToString(n)) == NatToString(n) && GetDisplayUnit(NatToString(n)) == "SEC"
  {
    ParseIntOfIntToString(n);
  }

  /** `resetTimer`. */
  function Reset(cfg: Config, s: State): (r: State)
    ensures ValidConfig(cfg) ==> Inv(cfg, r)
    ensures !r.isRunning && !r.isPaused && r.mode == Idle
    ensures r.currentRound == 1 && r.currentTime == cfg.interval && r.countdown == COUNTDOWN
  {
    State(1, cfg.interval, false, COUNTDOWN, false, Idle)
  }

  /** `startTimer`: rounds and interval must parse to positive numbers,
      otherwise the user is alerted and nothing changes (`None`). */
  function Start(rounds: Option<int>, interval: Option<int>, s: State): (r: Option<State>)
    ensures r.Some? <==> Positive(rounds) && Positive(interval)
    ensures r.Some? ==> Inv(Config(rounds.value, interval.value), r.value)
    ensures r.Some? ==>
      && r.value.isRunning && !r.value.isPaused && r.value.mode == Countdown
      && r.value.currentRound == 1 && r.value.currentTime == interval.value && r.value.countdown == COUNTDOWN
  {
    if !Positive(rounds) || !Positive(interval) then None
    else Some(State(1, interval.value, true, COUNTDOWN, false, Countdown))
  }

  /** `handleCirclePress`: toggles the pause of a running timer whose
      countdown is over; does nothing otherwise. */
  function HandleCirclePress(s: State): (r: State)
    ensures s.isRunning && s.countdown == 0 ==> r == s.(isPaused := !s.isPaused)
    ensures !(s.isRunning && s.countdown == 0) ==> r == s
    ensures forall cfg: Config :: Inv(cfg, s) ==> Inv(cfg, r)
  {
    if s.isRunning && s.countdown == 0 then s.(isPaused := !s.isPaused) else s
  }

  /** One second of an interval: the last second of the last round completes
      the workout, the last second of an earlier round starts the next one. */
  function ExerciseTick(cfg: Config, s: State): (r: Outcome<State>)
    ensures r.completed <==> s.currentTime <= 1 && s.currentRound >= cfg.rounds
    ensures r.completed ==> r.next == Reset(cfg, s)
    ensures s.currentTime <= 1 && s.currentRound < cfg.rounds ==>
      r.next == s.(currentRound := s.currentRound + 1, currentTime := cfg.interval)
    ensures s.currentTime > 1 ==> r.next == s.(currentTime := s.currentTime - 1)
  {
    var prev := s.currentTime;
    if prev <= 1 then
      if s.currentRound >= cfg.rounds then Outcome(Reset(cfg, s), true)
      else Outcome(s.(currentRound := s.currentRound + 1, currentTime := cfg.interval), false)
    else Outcome(s.(currentTime := prev - 1), false)
  }

  /** The once-a-second interval of a running, unpaused timer: the countdown
      while it is positive, the exercise interval afterwards. */
  function Tick(cfg: Config, s: State): (r: Outcome<State>)
    ensures !s.isRunning || s.isPaused ==> r == Outcome(s, false)
    ensures s.isRunning && !s.isPaused && s.countdown > 0 ==> r == Outcome(s.(countdown := s.countdown - 1), false)
    ensures Inv(cfg, s) ==> Inv(cfg, r.next)
    ensures Inv(cfg, s) && !r.completed ==> r.next.currentRound >= s.currentRound
  {
    if !s.isRunning || s.isPaused then Outcome(s, false)
    else if s.countdown > 0 then Outcome(s.(countdown := s.countdown - 1), false)
    else ExerciseTick(cfg, s)
  }

  /** Seconds left in the interval reached after `elapsed` more seconds:
      the one value in [1, interval] that, added to `elapsed`, makes a whole
      number of intervals. */
  function TimeLeft(interval: int, elapsed: int): (left: int)
    requires interval > 0 && elapsed >= 0
    ensures 1 <= left <= interval
    ensures (elapsed + left) % interval == 0
  {
    var left := interval - elapsed % interval;
    DivModUnique(elapsed + left, interval, elapsed / interval + 1, 0);
    left
  }

  /** `handleAppForeground`, as written: the round reached is clamped with
      `min` before the "finished in the background" test, so that test can
      never succeed and the workout never completes in the background. */
  function HandleAppForeground(cfg: Config, s: State, timeInBackground: int): (r: Outcome<State>)
    requires ValidConfig(cfg)
    ensures !s.isRunning || s.isPaused ==> r == Outcome(s, false)
    ensures !r.completed
    ensures Inv(cfg, s) && timeInBackground >= 0 ==> Inv(cfg, r.next)
  {
    if !s.isRunning || s.isPaused then Outcome(s, false)
    else if s.countdown > 0 then CatchUpCountdown(cfg, s, WholeSeconds(timeInBackground))
    else CatchUpExercise(cfg, s, WholeSeconds(timeInBackground))
  }

  /** The countdown branch of `handleAppForeground`: what is left of the
      countdown absorbs the absence first, the rest runs on into the
      intervals. */
  function CatchUpCountdown(cfg: Config, s: State, seconds: int): (r: Outcome<State>)
    requires ValidConfig(cfg) && s.countdown > 0
    ensures !r.completed
    ensures seconds < s.countdown ==> r.next == s.(countdown := s.countdown - seconds)
    ensures s.countdown <= seconds < s.countdown + cfg.interval ==>
      r.next == s.(countdown := 0, mode := Exercise, currentTime := s.countdown + cfg.interval - seconds)
    ensures seconds >= s.countdown + cfg.interval ==>
      && r.next.countdown == 0 && r.next.mode == Exercise
      && r.next.currentRound == Min(cfg.rounds, 1 + (seconds - s.countdown) / cfg.interval)
      && r.next.currentTime == cfg.interval - (seconds - s.countdown) % cfg.interval
    ensures Inv(cfg, s) && s.isRunning && seconds >= 0 ==> Inv(cfg, r.next)
  {
    var newCountdown := Max(0, s.countdown - seconds);
    if newCountdown <= 0 then
      var base := s.(countdown := 0, mode := Exercise);
      var timeAfterCountdown := seconds - s.countdown;
      var newTime := Max(1, cfg.interval - timeAfterCountdown);
      if timeAfterCountdown >= cfg.interval then
        DivAtLeast(timeAfterCountdown, cfg.interval, 1);
        var completedIntervals := timeAfterCountdown / cfg.interval;
        var newRound := Min(cfg.rounds, 1 + completedIntervals);
        if newRound > cfg.rounds then assert false; Outcome(Reset(cfg, base), true)
        else Outcome(base.(currentRound := newRound,
                           currentTime := Max(1, TimeLeft(cfg.interval, timeAfterCountdown))), false)
      else Outcome(base.(currentTime := newTime), false)
    else Outcome(s.(countdown := newCountdown), false)
  }

  /** The exercise branch of `handleAppForeground`: a short absence is taken
      off the current interval; a longer one moves on by the number of whole
      intervals that fit in it, clamped to the last round. */
  function CatchUpExercise(cfg: Config, s: State, seconds: int): (r: Outcome<State>)
    requires ValidConfig(cfg) && s.countdown <= 0
    ensures !r.completed
    ensures seconds < s.currentTime ==> r.next == s.(currentTime := Max(1, s.currentTime - seconds))
    ensures seconds >= s.currentTime ==>
      && r.next.currentRound == Min(cfg.rounds, s.currentRound + (seconds - s.currentTime) / cfg.interval + 1)
      && r.next.currentTime == cfg.interval - (seconds - s.currentTime) % cfg.interval
      && r.next == s.(currentRound := r.next.currentRound, currentTime := r.next.currentTime)
    ensures Inv(cfg, s) && s.isRunning && seconds >= 0 ==> Inv(cfg, r.next)
  {
    if seconds < s.currentTime then
      Outcome(s.(currentTime := Max(1, s.currentTime - seconds)), false)
    else
      var remainingTime := seconds - s.currentTime;
      DivAtLeast(remainingTime, cfg.interval, 0);
      var additionalCompletedIntervals := remainingTime / cfg.interval;
      var newRound := Min(cfg.rounds, s.currentRound + additionalCompletedIntervals + 1);
      if newRound > cfg.rounds then assert false; Outcome(Reset(cfg, s), true)
      else Outcome(s.(currentRound := newRound,
                      currentTime := Max(1, TimeLeft(cfg.interval, remainingTime))), false)
  }

  /** Five one-minute rounds, away for 400 seconds from the start of the
      countdown: the workout ended after 310 seconds, yet the timer comes
      back in round 5 with 30 seconds left. */
  lemma ForegroundMissesCompletion()
    ensures
      var cfg := Config(5, 60);
      var s := State(1, 60, true, COUNTDOWN, false, Countdown);
      && Inv(cfg, s)
      && COUNTDOWN + cfg.rounds * cfg.interval <= 400
      && HandleAppForeground(cfg, s, 400000) == Outcome(State(5, 30, true, 0, false, Exercise), false)
  {
  }

  /** Whole intervals in a span of `a` seconds reach `n` exactly when the
      span covers `n` intervals. */
  lemma DivAtLeast(a: int, b: int, n: int)
    requires a >= 0 && b > 0
    ensures a / b >= 0
    ensures a / b >= n <==> a >= n * b
    ensures n >= 0 ==> n * b >= 0
  {
    var q := a / b;
    assert a == q * b + a % b;
    if q >= n {
      assert q * b >= n * b;
    } else {
      assert (q + 1) * b <= n * b;
    }
  }

  /** `handleAppForeground` as evidently intended: the round reached is
      compared with `rounds` before anything is clamped, so a workout whose
      remaining time has fully run out in the background completes. */
  function HandleAppForegroundCorrected(cfg: Config, s: State, timeInBackground: int): (r: Outcome<State>)
    requires ValidConfig(cfg)
    ensures !s.isRunning || s.isPaused ==> r == Outcome(s, false)
    ensures s.isRunning && !s.isPaused && s.countdown <= 0 && s.currentRound <= cfg.rounds ==>
      (r.completed <==> WholeSeconds(timeInBackground) >= s.currentTime + (cfg.rounds - s.currentRound) * cfg.interval)
    ensures s.isRunning && !s.isPaused && 0 < s.countdown ==>
      (r.completed <==> WholeSeconds(timeInBackground) >= s.countdown + cfg.rounds * cfg.interval)
    ensures r.completed ==> r.next == Reset(cfg, s)
    ensures Inv(cfg, s) && timeInBackground >= 0 ==> Inv(cfg, r.next)
  {
    if !s.isRunning || s.isPaused then Outcome(s, false)
    else if s.countdown > 0 then CatchUpCountdownCorrected(cfg, s, WholeSeconds(timeInBackground))
    else CatchUpExerciseCorrected(cfg, s, WholeSeconds(timeInBackground))
  }

  function CatchUpCountdownCorrected(cfg: Config, s: State, seconds: int): (r: Outcome<State>)
    requires ValidConfig(cfg) && s.countdown > 0
    ensures r.completed <==> seconds >= s.countdown + cfg.rounds * cfg.interval
    ensures r.completed ==> r.next == Reset(cfg, s)
    ensures Inv(cfg, s) && s.isRunning && seconds >= 0 ==> Inv(cfg, r.next)
  {
    if seconds < s.countdown then
      DivAtLeast(0, cfg.interval, cfg.rounds);
      Outcome(s.(countdown := s.countdown - seconds), false)
    else
      var base := s.(countdown := 0, mode := Exercise);
      var timeAfterCountdown := seconds - s.countdown;
      DivAtLeast(timeAfterCountdown, cfg.interval, cfg.rounds);
      var reached := 1 + timeAfterCountdown / cfg.interval;
      if reached > cfg.rounds then Outcome(Reset(cfg, base), true)
      else Outcome(base.(currentRound := reached,
                         currentTime := TimeLeft(cfg.interval, timeAfterCountdown)), false)
  }

  function CatchUpExerciseCorrected(cfg: Config, s: State, seconds: int): (r: Outcome<State>)
    requires ValidConfig(cfg) && s.countdown <= 0
    ensures s.currentRound <= cfg.rounds ==>
      (r.completed <==> seconds >= s.currentTime + (cfg.rounds - s.currentRound) * cfg.interval)
    ensures r.completed ==> r.next == Reset(cfg, s)
    ensures Inv(cfg, s) && s.isRunning && seconds >= 0 ==> Inv(cfg, r.next)
  {
    if seconds < s.currentTime then
      DivAtLeast(0, cfg.interval, cfg.rounds - s.currentRound);
      Outcome(s.(currentTime := Max(1, s.currentTime - seconds)), false)
    else
      var remainingTime := seconds - s.currentTime;
      DivAtLeast(remainingTime, cfg.interval, cfg.rounds - s.currentRound);
      var reached := s.currentRound + remainingTime / cfg.interval + 1;
      if reached > cfg.rounds then Outcome(Reset(cfg, s), true)
      else Outcome(s.(currentRound := reached, currentTime := TimeLeft(cfg.interval, remainingTime)), false)
  }
}

=== FILE: fortime.dfy ===
/** The For Time timer: each round is a work phase that counts up until the
    athlete skips it, followed by a rest that counts down; the workout ends
    with the rest of the last round. */
module ForTime {
  import opened Common

  /** Settings after `parseInt`: number of rounds and rest seconds. */
  datatype Config = Config(totalRounds: int, rest: int)

  datatype State = State(
    currentRound: int,
    currentTime: int,
    isRunning: bool,
    isResting: bool,
    countdown: int,
    isPaused: bool)

  predicate ValidConfig(cfg: Config)
  {
    cfg.totalRounds > 0 && cfg.rest > 0
  }

  /** The idle state: round one, time zero, full countdown. */
  function Idle(): State
  {
    State(1, 0, false, false, COUNTDOWN, false)
  }

  predicate Inv(cfg: Config, s: State)
  {
    && (!s.isRunning ==> s == Idle())
    && (s.isRunning ==>
          && ValidConfig(cfg)
          && 1 <= s.currentRound <= cfg.totalRounds
          && 0 <= s.countdown <= COUNTDOWN
          && (s.isPaused ==> s.countdown == 0)
          && (s.countdown > 0 ==> !s.isResting && s.currentTime == 0 && s.currentRound == 1)
          && (s.isResting ==> 1 <= s.currentTime <= cfg.rest)
          && (!s.isResting ==> 0 <= s.currentTime))
  }

  /** The state the component mounts with; the fields start empty, so
      `parseInt` reads NaN until the user picks values. */
  function Initial(): (s: State)
    ensures forall cfg: Config :: Inv(cfg, s)
  {
    Idle()
  }

  /** `resetTimer`: every field back to its idle value. */
  function Reset(): (r: State)
    ensures forall cfg: Config :: Inv(cfg, r)
    ensures !r.isRunning && r.currentRound == 1 && r.currentTime == 0 && r.countdown == COUNTDOWN
  {
    Idle()
  }

  /** `startTimer`: both fields must parse to positive numbers. */
  function Start(totalRounds: Option<int>, rest: Option<int>, s: State): (r: Option<State>)
    ensures r.Some? <==> Positive(totalRounds) && Positive(rest)
    ensures r.Some? ==> Inv(Config(totalRounds.value, rest.value), r.value)
    ensures r.Some? ==>
      && r.value.isRunning && !r.value.isPaused && !r.value.isResting
      && r.value.currentRound == 1 && r.value.currentTime == 0 && r.value.countdown == COUNTDOWN
  {
    if !Positive(totalRounds) || !Positive(rest) then None
    else Some(State(1, 0, true, false, COUNTDOWN, false))
  }

  /** `pauseTimer`: toggles the pause of a running timer past its countdown. */
  function Pause(s: State): (r: State)
    ensures s.isRunning && s.countdown == 0 ==> r == s.(isPaused := !s.isPaused)
    ensures !(s.isRunning && s.countdown == 0) ==> r == s
    ensures forall cfg: Config :: Inv(cfg, s) ==> Inv(cfg, r)
  {
    if s.isRunning && s.countdown == 0 then s.(isPaused := !s.isPaused) else s
  }

  /** The end of a rest, reached by the clock or by skipping: the last round
      completes the workout, any other goes on to the next round's work. */
  function EndRest(cfg: Config, s: State): (r: Outcome<State>)
    ensures r.completed <==> s.currentRound >= cfg.totalRounds
    ensures r.completed ==> r.next == Reset()
    ensures !r.completed ==>
      r.next == s.(isResting := false, currentTime := 0, currentRound := s.currentRound + 1)
  {
    if s.currentRound >= cfg.totalRounds then Outcome(Reset(), true)
    else Outcome(s.(isResting := false, currentTime := 0, currentRound := s.currentRound + 1), false)
  }

  /** `handleNextPhase`: ends the work phase early (starting the rest) or the
      rest early (as if it had run out). Only after the countdown. */
  function HandleNextPhase(cfg: Config, s: State): (r: Outcome<State>)
    ensures !(s.isRunning && s.countdown == 0) ==> r == Outcome(s, false)
    ensures s.isRunning && s.countdown == 0 && !s.isResting ==>
      r == Outcome(s.(isResting := true, currentTime := cfg.rest), false)
    ensures s.isRunning && s.countdown == 0 && s.isResting ==> r == EndRest(cfg, s)
    ensures Inv(cfg, s) ==> Inv(cfg, r.next)
  {
    if !(s.isRunning && s.countdown == 0) then Outcome(s, false)
    else if !s.isResting then Outcome(s.(isResting := true, currentTime := cfg.rest), false)
    else EndRest(cfg, s)
  }

  /** One second of a running, unpaused timer: countdown, then a work phase
      counting up or a rest counting down to `EndRest`. */
  function Tick(cfg: Config, s: State): (r: Outcome<State>)
    ensures !s.isRunning || s.isPaused ==> r == Outcome(s, false)
    ensures s.isRunning && !s.isPaused && s.countdown > 0 ==> r == Outcome(s.(countdown := s.countdown - 1), false)
    ensures s.isRunning && !s.isPaused && s.countdown <= 0 && !s.isResting ==>
      r == Outcome(s.(currentTime := s.currentTime + 1), false)
    ensures r.completed <==>
      s.isRunning && !s.isPaused && s.countdown <= 0 && s.isResting
      && s.currentTime <= 1 && s.currentRound >= cfg.totalRounds
    ensures Inv(cfg, s) ==> Inv(cfg, r.next)
  {
    if !s.isRunning || s.isPaused then Outcome(s, false)
    else if s.countdown > 0 then Outcome(s.(countdown := s.countdown - 1), false)
    else if s.isResting then
      var prev := s.currentTime;
      if prev <= 1 then EndRest(cfg, s)
      else Outcome(s.(currentTime := prev - 1), false)
    else Outcome(s.(currentTime := s.currentTime + 1), false)
  }

  /** Skipping the last second of a rest is the same as letting it run out. */
  lemma SkipAtEndOfRestIsTick(cfg: Config, s: State)
    requires s.isRunning && !s.isPaused && s.countdown == 0 && s.isResting && s.currentTime <= 1
    ensures HandleNextPhase(cfg, s) == Tick(cfg, s)
  {
  }

  /** Skipping twice from a work phase that is not the last moves to the next
      round's work phase, with its clock back at zero. */
  lemma SkipTwiceStartsNextRound(cfg: Config, s: State)
    requires Inv(cfg, s) && s.isRunning && s.countdown == 0 && !s.isResting
    requires s.currentRound < cfg.totalRounds
    ensures var r := HandleNextPhase(cfg, HandleNextPhase(cfg, s).next);
      && !r.completed
      && r.next == s.(currentRound := s.currentRound + 1, currentTime := 0)
      && Inv(cfg, r.next)
  {
  }

  /** Skipping twice from the work phase of the last round completes. */
  lemma SkipTwiceInLastRoundCompletes(cfg: Config, s: State)
    requires Inv(cfg, s) && s.isRunning && s.countdown == 0 && !s.isResting
    requires s.currentRound == cfg.totalRounds
    ensures HandleNextPhase(cfg, HandleNextPhase(cfg, s).next) == Outcome(Reset(), true)
  {
  }
}

=== FILE: mix.dfy ===
/** The MIX screen: the user builds a sequence of timers of the four kinds,
    reorders it, then runs the timers one after the other, each one's
    completion advancing to the next. */
module Mix {
  import opened Common
  import opened Text

  datatype TimerType = Amrap | Emom | Tabata | ForTime

  /** The label of each kind, as shown on its button and used in ids. */
  function TypeName(t: TimerType): (name: string)
    ensures |name| > 0 && '-' !in name
  {
    match t
    case Amrap => "AMRAP"
    case Emom => "EMOM"
    case Tabata => "TABATA"
    case ForTime => "FOR TIME"
  }

  datatype Item = Item(id: string, kind: TimerType, completed: bool)

  datatype State = State(sequence: seq<Item>, currentIndex: int, isConfiguring: bool, isRunning: bool)

  /** While configuring, the index rests at zero; otherwise it names an item
      of the sequence, the one whose timer is on screen. */
  predicate Inv(s: State)
  {
    && (s.isConfiguring ==> s.currentIndex == 0 && !s.isRunning)
    && (!s.isConfiguring ==> 0 <= s.currentIndex < |s.sequence|)
  }

  /** A sequence being run: the timers before the current one are exactly
      those marked completed. */
  predicate Progress(s: State)
  {
    && !s.isConfiguring && s.isRunning
    && 0 <= s.currentIndex < |s.sequence|
    && forall j :: 0 <= j < |s.sequence| ==> (s.sequence[j].completed <==> j < s.currentIndex)
  }

  function Initial(): (s: State)
    ensures Inv(s) && s.isConfiguring && |s.sequence| == 0
  {
    State([], 0, true, false)
  }

  /** `addTimer`: appends a fresh, not yet completed item whose id is the
      kind's label, a dash and the clock reading `now` in milliseconds. */
  function AddTimer(s: State, kind: TimerType, now: int): (r: State)
    ensures |r.sequence| == |s.sequence| + 1 && r.sequence[..|s.sequence|] == s.sequence
    ensures var item := r.sequence[|s.sequence|];
      && item.kind == kind && !item.completed
      && |item.id| > |TypeName(kind)| + 1
      && item.id[..|TypeName(kind)| + 1] == TypeName(kind) + "-"
      && ParseInt(item.id[|TypeName(kind)| + 1..]) == Some(now)
    ensures r == s.(sequence := r.sequence)
    ensures Inv(s) ==> Inv(r)
  {
    var id := TypeName(kind) + "-" + IntToString(now);
    assert id[|TypeName(kind)| + 1..] == IntToString(now);
    ParseIntOfIntToString(now);
    s.(sequence := s.sequence + [Item(id, kind, false)])
  }

  /** `prev.filter((_, idx) => idx !== index)`, position by position, as a
      reference for `RemoveAt`. */
  function FilterIndex<T>(xs: seq<T>, index: int, offset: int): seq<T>
    decreases |xs|
  {
    if |xs| == 0 then []
    else (if offset != index then [xs[0]] else []) + FilterIndex(xs[1..], index, offset + 1)
  }

  /** The sequence without its item at `index`; unchanged when there is no
      such item. */
  function RemoveAt<T>(xs: seq<T>, index: int): (r: seq<T>)
    ensures 0 <= index < |xs| ==> |r| == |xs| - 1
    ensures !(0 <= index < |xs|) ==> r == xs
  {
    if 0 <= index < |xs| then xs[..index] + xs[index + 1..] else xs
  }

  lemma {:induction false} FilterIndexIsRemoveAt<T>(xs: seq<T>, index: int, offset: int)
    ensures FilterIndex(xs, index, offset) == RemoveAt(xs, index - offset)
    decreases |xs|
  {
    if |xs| > 0 {
      FilterIndexIsRemoveAt(xs[1..], index, offset + 1);
      var i := index - offset;
      if i == 0 {
        assert xs[..0] + xs[1..] == xs[1..];
      } else if 0 < i < |xs| {
        ConsRemoveAt(xs, i);
      } else {
        assert [xs[0]] + xs[1..] == xs;
      }
    }
  }

  /** Removing a later item commutes with taking the first one off. */
  lemma ConsRemoveAt<T>(xs: seq<T>, i: int)
    requires 0 < i < |xs|
    ensures [xs[0]] + RemoveAt(xs[1..], i - 1) == RemoveAt(xs, i)
  {
    var l := [xs[0]] + RemoveAt(xs[1..], i - 1);
    var r := RemoveAt(xs, i);
    assert |l| == |r|;
    forall k | 0 <= k < |l|
      ensures l[k] == r[k]
    {
      if k < i {
        assert r[k] == xs[k];
      } else {
        assert r[k] == xs[k + 1];
      }
    }
  }

  /** `removeTimer`: the sequence filtered of the item at `index`. */
  function RemoveTimer(s: State, index: int): (r: State)
    ensures r.sequence == FilterIndex(s.sequence, index, 0)
    ensures r == s.(sequence := r.sequence)
  {
    FilterIndexIsRemoveAt(s.sequence, index, 0);
    s.(sequence := RemoveAt(s.sequence, index))
  }

  /** Where `Array.prototype.splice` starts for `start` on an array of
      length `len`: counted from the end when negative, clamped to the
      array. */
  function SpliceStart(start: int, len: nat): (k: nat)
    ensures k <= len
    ensures 0 <= start <= len ==> k == start
  {
    if start < 0 then Max(len + start, 0) else Min(start, len)
  }

  /** The list with `x` inserted before position `at`. */
  function Insert<T>(xs: seq<T>, at: int, x: T): (r: seq<T>)
    requires 0 <= at <= |xs|
    ensures |r| == |xs| + 1 && r[at] == x
    ensures forall k :: 0 <= k < at ==> r[k] == xs[k]
    ensures forall k :: at < k < |r| ==> r[k] == xs[k - 1]
  {
    xs[..at] + [x] + xs[at..]
  }

  /** Removing what was just inserted gives the list back. */
  lemma RemoveInserted<T>(xs: seq<T>, at: int, x: T)
    requires 0 <= at <= |xs|
    ensures RemoveAt(Insert(xs, at, x), at) == xs
  {
    var r := RemoveAt(Insert(xs, at, x), at);
    forall k | 0 <= k < |xs|
      ensures r[k] == xs[k]
    {
      if k < at {
        assert r[k] == Insert(xs, at, x)[k];
      } else {
        assert r[k] == Insert(xs, at, x)[k + 1];
      }
    }
  }

  /** Putting a removed item back where it was gives the list back. */
  lemma InsertRemoved<T>(xs: seq<T>, i: int)
    requires 0 <= i < |xs|
    ensures Insert(RemoveAt(xs, i), i, xs[i]) == xs
  {
    var rest := RemoveAt(xs, i);
    var r := Insert(rest, i, xs[i]);
    forall k | 0 <= k < |xs|
      ensures r[k] == xs[k]
    {
      if k < i {
        assert rest[k] == xs[k];
      } else if k > i {
        assert rest[k - 1] == xs[k];
      }
    }
  }

  lemma InsertMultiset<T>(xs: seq<T>, at: int, x: T)
    requires 0 <= at <= |xs|
    ensures multiset(Insert(xs, at, x)) == multiset(xs) + multiset{x}
  {
    assert xs == xs[..at] + xs[at..];
  }

  lemma RemoveAtMultiset<T>(xs: seq<T>, i: int)
    requires 0 <= i < |xs|
    ensures multiset(RemoveAt(xs, i)) + multiset{xs[i]} == multiset(xs)
  {
    assert xs == xs[..i] + [xs[i]] + xs[i + 1..];
  }

  /** `moveTimer` on a list: take the item at `from` out, then insert it at
      `to` of what remains. */
  function Move<T>(xs: seq<T>, from: int, to: int): (r: seq<T>)
    requires 0 <= from < |xs|
    ensures |r| == |xs| && multiset(r) == multiset(xs)
    ensures var at := SpliceStart(to, |xs| - 1);
      && r[at] == xs[from]
      && RemoveAt(r, at) == RemoveAt(xs, from)
  {
    var rest := RemoveAt(xs, from);
    assert |rest| == |xs| - 1;
    var at := SpliceStart(to, |rest|);
    var r := Insert(rest, at, xs[from]);
    assert multiset(r) == multiset(xs) by {
      RemoveAtMultiset(xs, from);
      InsertMultiset(rest, at, xs[from]);
    }
    assert RemoveAt(r, at) == rest by {
      RemoveInserted(rest, at, xs[from]);
    }
    r
  }

  /** Moving an item back to where it came from restores the list, so the
      up and down arrows undo each other. */
  lemma MoveBack<T>(xs: seq<T>, from: int, to: int)
    requires 0 <= from < |xs| && 0 <= to < |xs|
    ensures Move(Move(xs, from, to), to, from) == xs
  {
    var ys := Move(xs, from, to);
    assert RemoveAt(ys, to) == RemoveAt(xs, from) && ys[to] == xs[from];
    InsertRemoved(xs, from);
  }

  /** `moveTimer`. The screen calls it with `from` on an item. */
  function MoveTimer(s: State, from: int, to: int): (r: State)
    requires 0 <= from < |s.sequence|
    ensures multiset(r.sequence) == multiset(s.sequence)
    ensures r.sequence == Move(s.sequence, from, to)
    ensures r == s.(sequence := r.sequence)
    ensures Inv(s) ==> Inv(r)
  {
    s.(sequence := Move(s.sequence, from, to))
  }

  function ClearCompleted(xs: seq<Item>): (r: seq<Item>)
    ensures |r| == |xs|
    ensures forall j :: 0 <= j < |xs| ==> r[j] == xs[j].(completed := false)
  {
    if |xs| == 0 then [] else [xs[0].(completed := false)] + ClearCompleted(xs[1..])
  }

  /** `startSequence`: refused for an empty sequence; otherwise runs it from
      the first timer with every completed flag cleared. */
  function StartSequence(s: State): (r: Option<State>)
    ensures r.None? <==> |s.sequence| == 0
    ensures r.Some? ==>
      && Progress(r.value) && r.value.currentIndex == 0
      && |r.value.sequence| == |s.sequence|
      && (forall j :: 0 <= j < |s.sequence| ==>
            r.value.sequence[j].id == s.sequence[j].id && r.value.sequence[j].kind == s.sequence[j].kind)
    ensures r.Some? ==> Inv(r.value)
  {
    if |s.sequence| == 0 then None
    else Some(State(ClearCompleted(s.sequence), 0, false, true))
  }

  /** `resetSequence`: an empty sequence, back to configuring. */
  function ResetSequence(): (r: State)
    ensures Inv(r) && r.isConfiguring && !r.isRunning && |r.sequence| == 0
  {
    State([], 0, true, false)
  }

  /** `handleTimerComplete`: marks the current timer completed, then moves
      to the next one, or ends the sequence after the last. */
  function HandleTimerComplete(s: State): (r: State)
    ensures s.currentIndex >= |s.sequence| - 1 ==> r == ResetSequence()
    ensures 0 <= s.currentIndex < |s.sequence| - 1 ==>
      && r.currentIndex == s.currentIndex + 1
      && r.sequence == s.sequence[s.currentIndex := s.sequence[s.currentIndex].(completed := true)]
      && r.isConfiguring == s.isConfiguring && r.isRunning == s.isRunning
    ensures Inv(s) && !s.isConfiguring ==> Inv(r)
    ensures Progress(s) ==> Progress(r) || r == ResetSequence()
  {
    var i := s.currentIndex;
    var marked := if 0 <= i < |s.sequence| then s.sequence[i := s.sequence[i].(completed := true)] else s.sequence;
    if i < |s.sequence| - 1 then s.(sequence := marked, currentIndex := i + 1)
    else ResetSequence()
  }

  /** Leaving the screen stops the sequence and rewinds it to the first
      timer, keeping the list and its flags. */
  function Blur(s: State): (r: State)
    ensures !r.isRunning && r.currentIndex == 0
    ensures r.sequence == s.sequence && r.isConfiguring == s.isConfiguring
    ensures Inv(s) ==> Inv(r)
  {
    s.(isRunning := false, currentIndex := 0)
  }

  /** Completing every timer of a started sequence one by one ends it:
      after `k` completions the first `k` timers are marked, and the last
      completion resets the screen. */
  lemma {:induction false} CompleteAll(s: State, k: nat)
    requires Progress(s) && s.currentIndex + k < |s.sequence|
    ensures var r := CompleteTimes(s, k);
      Progress(r) && r.currentIndex == s.currentIndex + k && |r.sequence| == |s.sequence|
    decreases k
  {
    if k > 0 {
      CompleteAll(s, k - 1);
    }
  }

  function CompleteTimes(s: State, k: nat): State
    decreases k
  {
    if k == 0 then s else HandleTimerComplete(CompleteTimes(s, k - 1))
  }

  /** A started sequence of `n` timers ends after exactly `n` completions. */
  lemma SequenceEndsAfterEveryTimer(s: State)
    requires |s.sequence| > 0
    ensures var started := StartSequence(s).value;
      && Progress(CompleteTimes(started, |s.sequence| - 1))
      && CompleteTimes(started, |s.sequence|) == ResetSequence()
  {
    var started := StartSequence(s).value;
    CompleteAll(started, |s.sequence| - 1);
  }
}

=== FILE: numberpicker.dfy ===
/** The number picker shared by every configuration screen: the list of
    values it offers, where it scrolls to for an initial value, which value
    a scroll position selects, and how a value is labelled. */
module NumberPicker {
  import opened Common
  import opened Text

  /** Prop defaults when a screen leaves them out. */
  const DEFAULT_MIN: int := 1
  const DEFAULT_MAX: int := 99
  const DEFAULT_INITIAL: int := 5

  predicate Ascending(xs: seq<int>)
  {
    forall a, b :: 0 <= a < b < |xs| ==> xs[a] < xs[b]
  }

  predicate Within(xs: seq<int>, lo: int, hi: int)
  {
    forall k :: 0 <= k < |xs| ==> lo <= xs[k] <= hi
  }

  /** Every `step`-th number from `lo` while it does not exceed `hi`. */
  function StepRange(lo: int, hi: int, step: int): (r: seq<int>)
    requires step > 0
    ensures |r| == 0 <==> lo > hi
    ensures |r| > 0 ==> r[0] == lo && r[|r| - 1] <= hi < r[|r| - 1] + step
    decreases hi - lo + step
  {
    if lo > hi then [] else [lo] + StepRange(lo + step, hi, step)
  }

  /** The `k`-th number of the stepped list is `lo + k * step`. */
  lemma {:induction false} StepRangeValues(lo: int, hi: int, step: int)
    requires step > 0
    ensures forall k :: 0 <= k < |StepRange(lo, hi, step)| ==> StepRange(lo, hi, step)[k] == lo + k * step
    decreases hi - lo + step
  {
    if lo <= hi {
      StepRangeValues(lo + step, hi, step);
      var t := StepRange(lo + step, hi, step);
      var r := StepRange(lo, hi, step);
      assert r == [lo] + t;
      forall k | 0 <= k < |r|
        ensures r[k] == lo + k * step
      {
        if k > 0 {
          assert r[k] == t[k - 1];
          assert t[k - 1] == (lo + step) + (k - 1) * step;
          assert (lo + step) + (k - 1) * step == lo + k * step;
        }
      }
    }
  }

  lemma {:induction false} StepRangeAscending(lo: int, hi: int, step: int)
    requires step > 0
    ensures Ascending(StepRange(lo, hi, step))
    ensures Within(StepRange(lo, hi, step), lo, hi)
    decreases hi - lo + step
  {
    if lo <= hi {
      StepRangeAscending(lo + step, hi, step);
      var t := StepRange(lo + step, hi, step);
      var r := StepRange(lo, hi, step);
      assert r == [lo] + t;
      forall a, b | 0 <= a < b < |r|
        ensures r[a] < r[b]
      {
        assert r[b] == t[b - 1];
        if a > 0 {
          assert r[a] == t[a - 1];
        }
      }
      forall k | 0 <= k < |r|
        ensures lo <= r[k] <= hi
      {
        if k > 0 {
          assert r[k] == t[k - 1];
        }
      }
    }
  }

  /** `v` is one of the numbers a tier loop from `lo` by `step` visits
      before passing `hi`. */
  predicate OnTier(v: int, lo: int, hi: int, step: int)
    requires step > 0
    decreases hi - lo + step
  {
    lo <= v <= hi && (v == lo || OnTier(v, lo + step, hi, step))
  }

  /** The loop visits exactly the numbers in [lo, hi] a whole number of
      steps past `lo`. */
  lemma {:induction false} OnTierIsCongruent(v: int, lo: int, hi: int, step: int)
    requires step > 0
    ensures OnTier(v, lo, hi, step) <==> lo <= v <= hi && (v - lo) % step == 0
    decreases hi - lo + step
  {
    if lo <= v <= hi {
      if v == lo {
        DivModUnique(0, step, 0, 0);
      } else {
        OnTierIsCongruent(v, lo + step, hi, step);
        if (v - lo) % step == 0 {
          var q := (v - lo) / step;
          DivModUnique(v - lo, step, q, 0);
          MulAtLeast(q, step);
          DivModUnique(v - lo - step, step, q - 1, 0);
        }
        if lo + step <= v && (v - lo - step) % step == 0 {
          var q := (v - lo - step) / step;
          DivModUnique(v - lo - step, step, q, 0);
          DivModUnique(v - lo, step, q + 1, 0);
        }
      }
    }
  }

  /** No value of the list exceeds `v`. */
  predicate AtMost(xs: seq<int>, v: int)
  {
    forall k :: 0 <= k < |xs| ==> xs[k] <= v
  }

  /** `if (!values.includes(v)) values.push(v)` on a list that stops at `v`:
      afterwards `v` is offered exactly once, at the end. */
  function AddIfMissing(values: seq<int>, v: int): (r: seq<int>)
    requires Ascending(values) && AtMost(values, v)
    ensures Ascending(r) && AtMost(r, v)
    ensures |r| > 0 && r[|r| - 1] == v
    ensures |values| <= |r| <= |values| + 1 && r[..|values|] == values
  {
    if v in values then
      assert forall k :: 0 <= k < |values| - 1 ==> values[k] < v by {
        forall k | 0 <= k < |values| - 1
          ensures values[k] < v
        {
          assert values[k] < values[|values| - 1];
        }
      }
      values
    else
      values + [v]
  }

  /** One tier of the variable increments: every `step`-th number from `lo`
      up to `hi` is appended unless the list already holds it. */
  function AppendTier(values: seq<int>, lo: int, hi: int, step: int): seq<int>
    requires step > 0
    decreases hi - lo + step
  {
    if lo > hi then values
    else AppendTier(if lo in values then values else values + [lo], lo + step, hi, step)
  }

  /** On an ascending list that stops at `lo`, a tier keeps the list
      ascending and only appends numbers of [lo, hi]. */
  lemma {:induction false} AppendTierOrdered(values: seq<int>, lo: int, hi: int, step: int)
    requires step > 0
    requires Ascending(values) && AtMost(values, lo)
    ensures var r := AppendTier(values, lo, hi, step);
      && Ascending(r)
      && |r| >= |values| && r[..|values|] == values
      && (forall k :: |values| <= k < |r| ==> lo <= r[k] <= hi)
      && AtMost(r, Max(lo, hi))
      && (lo > hi ==> r == values)
      && (lo <= hi ==> |r| > 0)
    decreases hi - lo + step
  {
    if lo <= hi {
      var next := AddIfMissing(values, lo);
      assert next == if lo in values then values else values + [lo];
      assert AtMost(next, lo + step);
      AppendTierOrdered(next, lo + step, hi, step);
      var r := AppendTier(next, lo + step, hi, step);
      assert AppendTier(values, lo, hi, step) == r;
      assert r[..|values|] == values by {
        assert r[..|values|] == r[..|next|][..|values|];
      }
      assert forall k :: |values| <= k < |r| ==> lo <= r[k] <= hi by {
        forall k | |values| <= k < |r|
          ensures lo <= r[k] <= hi
        {
          if k < |next| {
            assert r[k] == r[..|next|][k] == next[k] == lo;
          }
        }
      }
      assert AtMost(r, hi) by {
        forall k | 0 <= k < |r|
          ensures r[k] <= hi
        {
          if k < |next| {
            assert r[k] == r[..|next|][k] == next[k];
          }
        }
      }
    }
  }

  /** A tier adds exactly the numbers its loop visits to what the list
      already held. */
  lemma {:induction false} AppendTierHas(values: seq<int>, lo: int, hi: int, step: int, v: int)
    requires step > 0
    ensures v in AppendTier(values, lo, hi, step) <==> v in values || OnTier(v, lo, hi, step)
    decreases hi - lo + step
  {
    if lo <= hi {
      var next := if lo in values then values else values + [lo];
      AppendTierHas(next, lo + step, hi, step, v);
      assert v in next <==> v in values || v == lo;
    }
  }

  /** Appending a tier inside [min, max] to a list inside [min, max] keeps
      the list inside. */
  lemma AppendTierWithin(values: seq<int>, lo: int, hi: int, step: int, min: int, max: int)
    requires step > 0
    requires Ascending(values) && AtMost(values, lo)
    requires Within(values, min, max) && min <= lo && hi <= max
    ensures Within(AppendTier(values, lo, hi, step), min, max)
  {
    AppendTierOrdered(values, lo, hi, step);
    var r := AppendTier(values, lo, hi, step);
    forall k | 0 <= k < |r|
      ensures min <= r[k] <= max
    {
      if k < |values| {
        assert r[k] == r[..|values|][k];
      }
    }
  }

  /** A tier of the variable increments: from `start` (or `min`, if later)
      by `step` up to `end` (or `max`, if earlier); the last tier runs up to
      `max`. */
  datatype Tier = Tier(start: int, end: Option<int>, step: int)

  /** Steps of 5 up to a minute, 10 up to two, 15 up to five, 30 up to ten,
      then 60. */
  const TIERS: seq<Tier> := [
    Tier(5, Some(60), 5), Tier(60, Some(120), 10), Tier(120, Some(300), 15),
    Tier(300, Some(600), 30), Tier(600, None, 60)]

  function TierHi(t: Tier, max: int): (hi: int)
    ensures hi <= max
  {
    if t.end.Some? then Min(t.end.value, max) else max
  }

  /** Each tier ends where the next starts and only the last is open. */
  predicate Chained(tiers: seq<Tier>)
  {
    && (forall i :: 0 <= i < |tiers| ==> tiers[i].step > 0)
    && (forall i :: 0 <= i < |tiers| ==> (tiers[i].end.Some? <==> i < |tiers| - 1))
    && (forall i :: 0 <= i < |tiers| - 1 ==>
          tiers[i].end == Some(tiers[i + 1].start) && tiers[i].start <= tiers[i + 1].start)
  }

  /** `v` is visited by one of the tiers, each clipped to [min, max]. */
  predicate InTiers(v: int, tiers: seq<Tier>, min: int, max: int)
    requires Chained(tiers)
    decreases |tiers|
  {
    && |tiers| > 0
    && (|| OnTier(v, Max(tiers[0].start, min), TierHi(tiers[0], max), tiers[0].step)
        || (assert Chained(tiers[1..]); InTiers(v, tiers[1..], min, max)))
  }

  /** The remaining tiers appended in order. */
  function AppendTiers(values: seq<int>, tiers: seq<Tier>, min: int, max: int): (r: seq<int>)
    requires Chained(tiers)
    requires Ascending(values) && Within(values, min, max)
    requires |tiers| > 0 ==> AtMost(values, Max(tiers[0].start, min))
    ensures Ascending(r) && Within(r, min, max)
    ensures |r| >= |values|
    decreases |tiers|
  {
    if |tiers| == 0 then values
    else
      var t := tiers[0];
      var lo := Max(t.start, min);
      var hi := TierHi(t, max);
      AppendTierOrdered(values, lo, hi, t.step);
      AppendTierWithin(values, lo, hi, t.step, min, max);
      var next := AppendTier(values, lo, hi, t.step);
      assert Chained(tiers[1..]);
      assert |tiers| > 1 ==> Max(lo, hi) <= Max(tiers[1].start, min);
      AppendTiers(next, tiers[1..], min, max)
  }

  /** Tiers that all start above `max` add nothing. */
  lemma {:induction false} AppendTiersNone(values: seq<int>, tiers: seq<Tier>, min: int, max: int)
    requires Chained(tiers)
    requires Ascending(values) && Within(values, min, max)
    requires |tiers| > 0 ==> AtMost(values, Max(tiers[0].start, min))
    requires forall i :: 0 <= i < |tiers| ==> Max(tiers[i].start, min) > max
    ensures AppendTiers(values, tiers, min, max) == values
    decreases |tiers|
  {
    if |tiers| > 0 {
      var t := tiers[0];
      assert AppendTier(values, Max(t.start, min), TierHi(t, max), t.step) == values;
      assert Chained(tiers[1..]);
      AppendTiersNone(values, tiers[1..], min, max);
    }
  }

  /** When the first remaining tier starts within `max`, some tier adds a
      value: either that one, or, if `min` lies past its end, a later one. */
  lemma {:induction false} AppendTiersSome(values: seq<int>, tiers: seq<Tier>, min: int, max: int)
    requires Chained(tiers)
    requires Ascending(values) && Within(values, min, max)
    requires |tiers| > 0 && AtMost(values, Max(tiers[0].start, min))
    requires Max(tiers[0].start, min) <= max
    ensures |AppendTiers(values, tiers, min, max)| > 0
    decreases |tiers|
  {
    var t := tiers[0];
    var lo := Max(t.start, min);
    var hi := TierHi(t, max);
    AppendTierOrdered(values, lo, hi, t.step);
    var next := AppendTier(values, lo, hi, t.step);
    assert Chained(tiers[1..]);
    if lo > hi {
      assert |tiers| > 1 && Max(tiers[1].start, min) == min;
      AppendTiersSome(next, tiers[1..], min, max);
    }
  }

  /** The tiered list, each tier clipped to [min, max]. */
  function Tiers(min: int, max: int): (r: seq<int>)
    ensures Ascending(r) && Within(r, min, max)
  {
    assert Chained(TIERS);
    AppendTiers([], TIERS, min, max)
  }

  /** The tiers offer nothing exactly when `max` is below five or `min` is
      above `max`. */
  lemma TiersEmpty(min: int, max: int)
    ensures |Tiers(min, max)| == 0 <==> max < 5 || min > max
  {
    assert Chained(TIERS);
    if max < 5 || min > max {
      AppendTiersNone([], TIERS, min, max);
    } else {
      AppendTiersSome([], TIERS, min, max);
    }
  }

  /** `min` put in front of a non-empty list that misses it, then `max`
      appended when the list stops short of it. */
  function WithEndpoints(values: seq<int>, min: int, max: int): (r: seq<int>)
    requires Ascending(values) && Within(values, min, max)
    ensures Ascending(r) && Within(r, min, max)
    ensures |r| == 0 <==> |values| == 0
    ensures |r| > 0 ==> r[0] == min && r[|r| - 1] == max
  {
    if |values| == 0 then values
    else
      var withMin := if min < values[0] then [min] + values else values;
      assert withMin[|withMin| - 1] == values[|values| - 1];
      if max > withMin[|withMin| - 1] then withMin + [max] else withMin
  }

  /** A truthy `stepValue`: present and not zero. */
  predicate HasStep(stepValue: Option<int>)
  {
    stepValue.Some? && stepValue.value != 0
  }

  /** `generateValues`. A truthy `stepValue` gives every `step`-th number
      from `min` up to `max`; otherwise the tiers, completed with `min` and
      `max`. The final numeric sort leaves the list as it is, since it is
      already ascending. A negative step is only allowed where the loop
      never runs, with `min` above `max`. */
  function GenerateValues(min: int, max: int, stepValue: Option<int>): (values: seq<int>)
    requires stepValue.None? || stepValue.value >= 0 || min > max
    ensures Ascending(values) && Within(values, min, max)
    ensures |values| == 0 <==> min > max || (!HasStep(stepValue) && max < 5)
    ensures HasStep(stepValue) && |values| > 0 ==>
      values[0] == min && values[|values| - 1] + stepValue.value > max
    ensures !HasStep(stepValue) && |values| > 0 ==>
      values[0] == min && values[|values| - 1] == max
  {
    if HasStep(stepValue) then
      if stepValue.value < 0 then [] else Stepped(min, max, stepValue.value)
    else Tiered(min, max)
  }

  /** The values offered with a step: every `step`-th number from `min`, up
      to the last one not above `max`. */
  function Stepped(min: int, max: int, step: int): (values: seq<int>)
    requires step > 0
    ensures Ascending(values) && Within(values, min, max)
    ensures |values| == 0 <==> min > max
    ensures |values| > 0 ==> values[0] == min && values[|values| - 1] + step > max
  {
    StepRangeAscending(min, max, step);
    StepRange(min, max, step)
  }

  /** With a step, the `k`-th value offered is `min + k * step`. */
  lemma SteppedValues(min: int, max: int, step: int)
    requires step > 0
    ensures var values := GenerateValues(min, max, Some(step));
      forall k :: 0 <= k < |values| ==> values[k] == min + k * step
  {
    assert GenerateValues(min, max, Some(step)) == StepRange(min, max, step);
    StepRangeValues(min, max, step);
  }

  /** The values offered without a step: the tiers completed with `min` and
      `max`, or nothing when the tiers offer nothing. */
  function Tiered(min: int, max: int): (values: seq<int>)
    ensures Ascending(values) && Within(values, min, max)
    ensures |values| == 0 <==> max < 5 || min > max
    ensures |values| > 0 ==> values[0] == min && values[|values| - 1] == max
  {
    TiersEmpty(min, max);
    WithEndpoints(Tiers(min, max), min, max)
  }

  /** The tiers together add exactly the numbers some tier's loop visits. */
  lemma {:induction false} AppendTiersHas(values: seq<int>, tiers: seq<Tier>, min: int, max: int, v: int)
    requires Chained(tiers)
    requires Ascending(values) && Within(values, min, max)
    requires |tiers| > 0 ==> AtMost(values, Max(tiers[0].start, min))
    ensures v in AppendTiers(values, tiers, min, max) <==> v in values || InTiers(v, tiers, min, max)
    decreases |tiers|
  {
    if |tiers| > 0 {
      var t := tiers[0];
      var lo := Max(t.start, min);
      var hi := TierHi(t, max);
      AppendTierOrdered(values, lo, hi, t.step);
      AppendTierWithin(values, lo, hi, t.step, min, max);
      var next := AppendTier(values, lo, hi, t.step);
      assert Chained(tiers[1..]);
      assert |tiers| > 1 ==> Max(lo, hi) <= Max(tiers[1].start, min);
      assert AppendTiers(values, tiers, min, max) == AppendTiers(next, tiers[1..], min, max);
      AppendTiersHas(next, tiers[1..], min, max, v);
      AppendTierHas(values, lo, hi, t.step, v);
    }
  }

  /** `min` and `max` are added to a non-empty list, and nothing else. */
  lemma WithEndpointsHas(values: seq<int>, min: int, max: int, v: int)
    requires Ascending(values) && Within(values, min, max)
    ensures v in WithEndpoints(values, min, max) <==> |values| > 0 && (v in values || v == min || v == max)
  {
    var r := WithEndpoints(values, min, max);
    if |values| > 0 {
      assert r[0] == min && r[|r| - 1] == max;
      var withMin := if min < values[0] then [min] + values else values;
      assert v in withMin <==> v in values || (min < values[0] && v == min);
      assert min !in values ==> min < values[0];
      assert max !in values ==> max > values[|values| - 1];
    }
  }

  /** Without a step the picker offers `min`, `max`, and what each tier's
      loop visits: every 5 s up to a minute, every 10 s up to two, every
      15 s up to five, every 30 s up to ten, then every minute, each tier
      starting no earlier than `min` and stopping at `max`; or nothing at
      all when `max` is below five or `min` above `max`. */
  lemma TieredValues(min: int, max: int, stepValue: Option<int>, v: int)
    requires !HasStep(stepValue)
    ensures v in GenerateValues(min, max, stepValue) <==>
      && 5 <= max && min <= max
      && (|| v == min || v == max
          || OnTier(v, Max(5, min), Min(60, max), 5)
          || OnTier(v, Max(60, min), Min(120, max), 10)
          || OnTier(v, Max(120, min), Min(300, max), 15)
          || OnTier(v, Max(300, min), Min(600, max), 30)
          || OnTier(v, Max(600, min), max, 60))
  {
    assert Chained(TIERS);
    TiersEmpty(min, max);
    AppendTiersHas([], TIERS, min, max, v);
    WithEndpointsHas(Tiers(min, max), min, max, v);
    assert TIERS[1..][1..][1..][1..][1..] == [];
  }

  /** `findClosestValueIndex`: the position of `value` when it is offered,
      otherwise the first position of a nearest value; 0 for an empty list. */
  method FindClosestValueIndex(values: seq<int>, value: int) returns (index: int)
    ensures |values| == 0 ==> index == 0
    ensures |values| > 0 ==> 0 <= index < |values|
    ensures |values| > 0 ==> forall j :: 0 <= j < |values| ==> Abs(value - values[index]) <= Abs(value - values[j])
    ensures |values| > 0 ==> forall j :: 0 <= j < index ==> Abs(value - values[j]) > Abs(value - values[index])
    ensures value in values ==> values[index] == value
  {
    var k := 0;
    while k < |values| && values[k] != value
      invariant 0 <= k <= |values|
      invariant forall j :: 0 <= j < k ==> values[j] != value
    {
      k := k + 1;
    }
    if k < |values| {
      return k;
    }
    if |values| == 0 {
      return 0;
    }
    var closestDiff := Abs(value - values[0]);
    index := 0;
    var i := 1;
    while i < |values|
      invariant 1 <= i <= |values| && 0 <= index < i
      invariant closestDiff == Abs(value - values[index])
      invariant forall j :: 0 <= j < i ==> closestDiff <= Abs(value - values[j])
      invariant forall j :: 0 <= j < index ==> Abs(value - values[j]) > closestDiff
    {
      var diff := Abs(value - values[i]);
      if diff < closestDiff {
        closestDiff := diff;
        index := i;
      }
      i := i + 1;
    }
  }

  /** `handleScroll`: the value at the scrolled-to row when there is one;
      otherwise the selection stays. */
  function HandleScroll(values: seq<int>, selected: int, row: int): (r: int)
    ensures 0 <= row < |values| ==> r == values[row]
    ensures !(0 <= row < |values|) ==> r == selected
    ensures r in values || r == selected
  {
    if 0 <= row < |values| then values[row] else selected
  }

  /** `formatTimeValue`: `M:SS` from a minute on when the picker shows
      times, `String(value)` otherwise; either way the text reads back as
      the value. */
  function FormatTimeValue(formatAsTime: bool, value: int): (r: string)
    ensures formatAsTime && value >= 60 ==> IsClockText(r, value)
    ensures !(formatAsTime && value >= 60) ==> r == IntToString(value) && ParseInt(r) == Some(value)
    ensures !(formatAsTime && value >= 60) ==> ParseClock(r) == None
  {
    if formatAsTime && value >= 60 then FormatTime(value)
    else
      ParseIntOfIntToString(value);
      NoColonInIntToString(value);
      IntToString(value)
  }

  /** `String` of an integer holds no colon, so it never reads as a clock. */
  lemma NoColonInIntToString(n: int)
    ensures ParseClock(IntToString(n)) == None
  {
    var r := IntToString(n);
    if |r| >= 4 {
      if n >= 0 {
        assert IsDigit(NatToString(n)[|r| - 3]);
      } else {
        assert IsDigit(NatToString(-n)[|r| - 4]);
        assert r[|r| - 3] == NatToString(-n)[|r| - 4];
      }
    }
  }

  /** `getDisplayUnit`: "MIN" exactly when the value is shown as a clock;
      otherwise the picker's own unit. */
  function GetDisplayUnit(formatAsTime: bool, unit: string, value: int): (r: string)
    ensures unit != "MIN" ==> (r == "MIN" <==> ParseClock(FormatTimeValue(formatAsTime, value)).Some?)
    ensures r == "MIN" || r == unit
  {
    if formatAsTime && value >= 60 then "MIN" else unit
  }
}

=== FILE: tabata.dfy ===
/** The TABATA timer: a ten-second countdown, then `rounds` pairs of a work
    phase and a rest phase, each counted down second by second. A handler
    reads the snapshot captured when the screen was drawn and returns the
    snapshot after all of its state setters have been applied. */
module Tabata {
  import opened Common

  /** The interval the timer currently drives (`modeRef`). */
  datatype Mode = Idle | Countdown | Work | Rest

  /** Settings after `parseInt`: number of rounds, work and rest seconds. */
  datatype Config = Config(rounds: int, work: int, rest: int)

  datatype State = State(
    currentRound: int,
    currentTime: int,
    isRunning: bool,
    isResting: bool,
    countdown: int,
    isPaused: bool,
    mode: Mode)

  predicate ValidConfig(cfg: Config)
  {
    cfg.rounds > 0 && cfg.work > 0 && cfg.rest > 0
  }

  /** Everything the handlers keep true except the upper bound on the round:
      an idle timer waits with a full countdown, a running one is in exactly
      one phase whose remaining time lies within that phase's length. */
  predicate ShapeInv(cfg: Config, s: State)
  {
    && ValidConfig(cfg)
    && s.currentRound >= 1
    && 0 <= s.countdown <= COUNTDOWN
    && (!s.isRunning ==>
          s.mode == Idle && !s.isPaused && !s.isResting && s.countdown == COUNTDOWN && s.currentRound == 1)
    && (s.isRunning ==> s.mode != Idle && (s.mode == Countdown <==> s.countdown > 0))
    && (s.mode == Countdown ==> !s.isResting && !s.isPaused && s.currentTime == cfg.work)
    && (s.mode == Work ==> !s.isResting && 0 <= s.currentTime <= cfg.work)
    && (s.mode == Rest ==> s.isResting && 0 <= s.currentTime <= cfg.rest)
  }

  /** The full invariant: the shape, and a round that never passes `rounds`. */
  predicate Inv(cfg: Config, s: State)
  {
    ShapeInv(cfg, s) && s.currentRound <= cfg.rounds
  }

  /** The state the component mounts with (default work time "20"). */
  function Initial(): (s: State)
    ensures forall cfg: Config :: ValidConfig(cfg) ==> Inv(cfg, s)
  {
    State(1, 20, false, false, COUNTDOWN, false, Idle)
  }

  /** `resetTimer`: back to round one of an idle timer, whatever the state. */
  function Reset(cfg: Config, s: State): (r: State)
    ensures ValidConfig(cfg) ==> Inv(cfg, r)
    ensures !r.isRunning && !r.isPaused && !r.isResting && r.mode == Idle
    ensures r.currentRound == 1 && r.currentTime == cfg.work && r.countdown == COUNTDOWN
  {
    State(1, cfg.work, false, false, COUNTDOWN, false, Idle)
  }

  /** `startTimer`: each field must parse to a positive number, otherwise the
      user is alerted and nothing changes (`None`). */
  function Start(rounds: Option<int>, work: Option<int>, rest: Option<int>, s: State): (r: Option<State>)
    ensures r.Some? <==> Positive(rounds) && Positive(work) && Positive(rest)
    ensures r.Some? ==> Inv(Config(rounds.value, work.value, rest.value), r.value)
    ensures r.Some? ==>
      && r.value.isRunning && !r.value.isPaused && !r.value.isResting
      && r.value.currentRound == 1 && r.value.currentTime == work.value
      && r.value.countdown == COUNTDOWN && r.value.mode == Countdown
  {
    if !Positive(rounds) || !Positive(work) || !Positive(rest) then None
    else Some(State(1, work.value, true, false, COUNTDOWN, false, Countdown))
  }

  /** `pauseTimer`: toggles the pause, but only once the countdown is over. */
  function Pause(s: State): (r: State)
    ensures s.countdown == 0 ==> r == s.(isPaused := !s.isPaused)
    ensures s.countdown != 0 ==> r == s
    ensures forall cfg: Config :: Inv(cfg, s) ==> Inv(cfg, r)
  {
    if s.countdown == 0 then s.(isPaused := !s.isPaused) else s
  }

  /** One second of the lead-in countdown. */
  function CountdownTick(s: State): (r: State)
    ensures r.countdown == Max(0, s.countdown - 1)
    ensures s.countdown > 0 && r.countdown == 0 ==> r.mode == Work
    ensures !(s.countdown > 0 && r.countdown == 0) ==> r.mode == s.mode
    ensures r.(countdown := s.countdown, mode := s.mode) == s
  {
    var newValue := Max(0, s.countdown - 1);
    if newValue == 0 && s.countdown > 0 then s.(countdown := newValue, mode := Work)
    else s.(countdown := newValue)
  }

  /** One second of a work or rest phase. A phase changes only when the
      previous value is already zero, so a phase of length n lasts n + 1
      ticks. The end of the last rest completes the workout. */
  function PhaseTick(cfg: Config, s: State): (r: Outcome<State>)
    ensures r.completed <==> s.currentTime <= 0 && s.isResting && s.currentRound >= cfg.rounds
    ensures r.completed ==> r.next == Reset(cfg, s)
    ensures s.currentTime > 0 ==> r.next == s.(currentTime := s.currentTime - 1)
    ensures s.currentTime <= 0 && s.isResting && s.currentRound < cfg.rounds ==>
      r.next == s.(currentRound := s.currentRound + 1, isResting := false, mode := Work, currentTime := cfg.work)
    ensures s.currentTime <= 0 && !s.isResting ==>
      r.next == s.(isResting := true, mode := Rest, currentTime := cfg.rest)
  {
    var prev := s.currentTime;
    if prev <= 0 then
      if s.isResting then
        if s.currentRound >= cfg.rounds then Outcome(Reset(cfg, s), true)
        else Outcome(s.(currentRound := s.currentRound + 1, isResting := false, mode := Work, currentTime := cfg.work), false)
      else Outcome(s.(isResting := true, mode := Rest, currentTime := cfg.rest), false)
    else Outcome(s.(currentTime := prev - 1), false)
  }

  /** The once-a-second interval, which only runs while the timer is running
      and not paused, and which drives whichever interval `modeRef` names. */
  function Tick(cfg: Config, s: State): (r: Outcome<State>)
    ensures !s.isRunning || s.isPaused ==> r == Outcome(s, false)
    ensures r.completed ==> s.mode in {Work, Rest} && s.isResting && s.currentRound >= cfg.rounds
    ensures Inv(cfg, s) ==> Inv(cfg, r.next)
    ensures Inv(cfg, s) && !r.completed ==> r.next.currentRound >= s.currentRound
  {
    if !s.isRunning || s.isPaused then Outcome(s, false)
    else
      match s.mode
      case Countdown => Outcome(CountdownTick(s), false)
      case Work => PhaseTick(cfg, s)
      case Rest => PhaseTick(cfg, s)
      case Idle => Outcome(s, false)
  }

  /** Where the background cascade lands: the workout is over, or it stops in
      a phase after `advanced` increments of the round counter. */
  datatype Landing = Finished | Landed(advanced: nat, resting: bool, time: int)

  /** `handlePhaseTransitionInBackground`. The recursive calls see the SAME
      captured `resting` and `round` as the first call; only the seconds left
      over change. Each call on the rest-to-work path queues one more
      `r => r + 1` update of the round. The seconds shrink on every call only
      when both phases last at least three seconds (with two seconds and one
      second left over, the call repeats itself forever); the number picker
      offers five seconds at least. */
  function Cascade(cfg: Config, resting: bool, round: int, t: nat): (c: Landing)
    requires cfg.work >= 3 && cfg.rest >= 3
    ensures c.Finished? <==> resting && round >= cfg.rounds
    ensures c.Landed? ==> c.resting == !resting
    ensures c.Landed? && resting ==> 2 <= c.time <= cfg.work && c.advanced >= 1
    ensures c.Landed? && !resting ==> 2 <= c.time <= cfg.rest && c.advanced == 0
    ensures c.Landed? && resting && t < cfg.work - 1 ==> c == Landed(1, false, cfg.work - t)
    ensures c.Landed? && !resting && t < cfg.rest - 1 ==> c == Landed(0, true, cfg.rest - t)
    decreases t
  {
    if resting then
      if round >= cfg.rounds then Finished
      else
        var newWorkTime := Max(1, cfg.work - t);
        if newWorkTime <= 1 then
          match Cascade(cfg, resting, round, Abs(t - cfg.work))
          case Finished => Finished
          case Landed(advanced, phase, time) => Landed(advanced + 1, phase, time)
        else Landed(1, false, newWorkTime)
    else
      var newRestTime := Max(1, cfg.rest - t);
      if newRestTime <= 1 then Cascade(cfg, resting, round, Abs(t - cfg.rest))
      else Landed(0, true, newRestTime)
  }

  /** Applies a cascade computed from the captured snapshot `s` on top of the
      setters already issued (`base`); a finished workout is reset. */
  function ApplyLanding(cfg: Config, s: State, base: State, c: Landing): Outcome<State>
  {
    match c
    case Finished => Outcome(Reset(cfg, base), true)
    case Landed(advanced, resting, time) =>
      Outcome(base.(currentRound := s.currentRound + advanced, isResting := resting,
                    mode := if resting then Rest else Work, currentTime := time), false)
  }

  /** `handleAppForeground`: catches up with the whole seconds spent in the
      background, `timeInBackground` being milliseconds. */
  function HandleAppForeground(cfg: Config, s: State, timeInBackground: int): (r: Outcome<State>)
    requires cfg.work >= 3 && cfg.rest >= 3
    ensures !s.isRunning || s.isPaused ==> r == Outcome(s, false)
    ensures !r.completed && r.next.currentTime != s.currentTime ==> r.next.currentTime >= 1
    ensures r.completed ==> s.isResting && s.currentRound >= cfg.rounds && r.next == Reset(cfg, s)
    ensures s.isRunning && !s.isPaused && 0 < s.countdown && WholeSeconds(timeInBackground) < s.countdown ==>
      r == Outcome(s.(countdown := s.countdown - WholeSeconds(timeInBackground)), false)
    ensures s.isRunning && !s.isPaused && 0 < s.countdown <= WholeSeconds(timeInBackground) && !r.completed ==>
      r.next.countdown == 0 && r.next.currentRound >= s.currentRound
    ensures s.isRunning && !s.isPaused && s.countdown <= 0 && WholeSeconds(timeInBackground) < s.currentTime ==>
      r == Outcome(s.(currentTime := s.currentTime - WholeSeconds(timeInBackground)), false)
    ensures Inv(cfg, s) && timeInBackground >= 0 ==> ShapeInv(cfg, r.next)
  {
    if !s.isRunning || s.isPaused then Outcome(s, false)
    else
      var seconds := WholeSeconds(timeInBackground);
      if s.countdown > 0 then
        var newCountdown := Max(0, s.countdown - seconds);
        if newCountdown <= 0 then
          var base := s.(countdown := 0, mode := Work);
          var timeAfterCountdown := seconds - s.countdown;
          if timeAfterCountdown >= cfg.work then
            ApplyLanding(cfg, s, base, Cascade(cfg, s.isResting, s.currentRound, timeAfterCountdown - cfg.work))
          else
            Outcome(base.(currentTime := Max(1, cfg.work - timeAfterCountdown)), false)
        else Outcome(s.(countdown := newCountdown), false)
      else if seconds < s.currentTime then
        Outcome(s.(currentTime := Max(1, s.currentTime - seconds)), false)
      else
        ApplyLanding(cfg, s, s, Cascade(cfg, s.isResting, s.currentRound, seconds - s.currentTime))
  }

  /** Reset does not depend on the state it is applied to. */
  lemma ResetForgetsHistory(cfg: Config, a: State, b: State)
    ensures Reset(cfg, a) == Reset(cfg, b)
    ensures Reset(cfg, Reset(cfg, a)) == Reset(cfg, a)
  {
  }

  /** The cascade keeps the captured `resting` and `round`, and the queued
      round updates add up: with eight rounds of five-second phases, leaving
      for 23 seconds with three seconds of the seventh rest to go leaves the
      timer in round 12 of 8. */
  lemma CascadeOvershootsRounds()
    ensures
      var cfg := Config(8, 5, 5);
      var s := State(7, 3, true, true, 0, false, Rest);
      && Inv(cfg, s)
      && HandleAppForeground(cfg, s, 23000) == Outcome(s.(currentRound := 12, isResting := false, mode := Work, currentTime := 5), false)
      && !Inv(cfg, HandleAppForeground(cfg, s, 23000).next)
  {
    var cfg := Config(8, 5, 5);
    assert Cascade(cfg, true, 7, 0) == Landed(1, false, 5);
    assert Cascade(cfg, true, 7, 5) == Landed(2, false, 5);
    assert Cascade(cfg, true, 7, 10) == Landed(3, false, 5);
    assert Cascade(cfg, true, 7, 15) == Landed(4, false, 5);
    assert Cascade(cfg, true, 7, 20) == Landed(5, false, 5);
  }

  /** Where the corrected cascade lands: the workout is over, or it stops in
      a phase of the round it reached. */
  datatype Reached = Done | At(round: int, resting: bool, time: int)

  /** The cascade as evidently intended: every step starts from the phase and
      round the previous step reached, so the end of the last rest ends the
      workout and the round stays within `rounds`. */
  function CascadeCorrected(cfg: Config, resting: bool, round: int, t: nat): (c: Reached)
    requires cfg.work >= 3 && cfg.rest >= 3
    ensures c.At? && 1 <= round <= cfg.rounds ==> round <= c.round <= cfg.rounds
    ensures c.At? && c.resting ==> 2 <= c.time <= cfg.rest
    ensures c.At? && !c.resting ==> 2 <= c.time <= cfg.work
    ensures resting && round < cfg.rounds && t < cfg.work - 1 ==> c == At(round + 1, false, cfg.work - t)
    ensures !resting && t < cfg.rest - 1 ==> c == At(round, true, cfg.rest - t)
    ensures resting && round >= cfg.rounds ==> c == Done
    decreases t
  {
    if resting then
      if round >= cfg.rounds then Done
      else
        var newWorkTime := Max(1, cfg.work - t);
        if newWorkTime <= 1 then CascadeCorrected(cfg, false, round + 1, Abs(t - cfg.work))
        else At(round + 1, false, newWorkTime)
    else
      var newRestTime := Max(1, cfg.rest - t);
      if newRestTime <= 1 then CascadeCorrected(cfg, true, round, Abs(t - cfg.rest))
      else At(round, true, newRestTime)
  }

  /** Seconds of the workout still ahead at the end of the current phase of
      `round`: the rest of this round when in work, then every later round's
      work and rest. */
  function Remaining(cfg: Config, resting: bool, round: int): int
    decreases cfg.rounds - round, if resting then 0 else 1
  {
    if !resting then cfg.rest + Remaining(cfg, true, round)
    else if round >= cfg.rounds then 0
    else cfg.work + Remaining(cfg, false, round + 1)
  }

  lemma {:induction false} RemainingIsProduct(cfg: Config, resting: bool, round: int)
    requires round <= cfg.rounds
    ensures Remaining(cfg, resting, round)
         == (cfg.rounds - round) * (cfg.work + cfg.rest) + (if resting then 0 else cfg.rest)
    decreases cfg.rounds - round, if resting then 0 else 1
  {
    if !resting {
      RemainingIsProduct(cfg, true, round);
    } else if round < cfg.rounds {
      RemainingIsProduct(cfg, false, round + 1);
      assert (cfg.rounds - round) * (cfg.work + cfg.rest)
          == (cfg.rounds - (round + 1)) * (cfg.work + cfg.rest) + (cfg.work + cfg.rest);
    }
  }

  lemma {:induction false} CascadeCorrectedReachesEnd(cfg: Config, resting: bool, round: int, t: nat)
    requires cfg.work >= 3 && cfg.rest >= 3
    requires 1 <= round <= cfg.rounds
    ensures CascadeCorrected(cfg, resting, round, t).Done? <==> t + 1 >= Remaining(cfg, resting, round)
    decreases t
  {
    if resting {
      if round < cfg.rounds {
        RemainingAtLeast(cfg, false, round + 1);
        if t >= cfg.work - 1 {
          CascadeCorrectedReachesEnd(cfg, false, round + 1, Abs(t - cfg.work));
        }
      }
    } else {
      RemainingAtLeast(cfg, true, round);
      if t >= cfg.rest - 1 {
        CascadeCorrectedReachesEnd(cfg, true, round, Abs(t - cfg.rest));
      }
    }
  }

  lemma {:induction false} RemainingAtLeast(cfg: Config, resting: bool, round: int)
    requires cfg.work >= 3 && cfg.rest >= 3
    ensures Remaining(cfg, resting, round) >= 0
    ensures resting && round < cfg.rounds ==> Remaining(cfg, resting, round) >= cfg.work + cfg.rest
    ensures !resting ==> Remaining(cfg, resting, round) >= cfg.rest
    decreases cfg.rounds - round, if resting then 0 else 1
  {
    if !resting {
      RemainingAtLeast(cfg, true, round);
    } else if round < cfg.rounds {
      RemainingAtLeast(cfg, false, round + 1);
    }
  }

  /** The corrected walk ends the workout exactly when the absence covers
      what was left of it: the rest of the current phase's round, every later
      round's work and rest, less the one second the last phase shows before
      it ends. */
  lemma CascadeCorrectedDone(cfg: Config, resting: bool, round: int, t: nat)
    requires cfg.work >= 3 && cfg.rest >= 3
    requires 1 <= round <= cfg.rounds
    ensures CascadeCorrected(cfg, resting, round, t).Done?
        <==> t + 1 >= (cfg.rounds - round) * (cfg.work + cfg.rest) + (if resting then 0 else cfg.rest)
  {
    CascadeCorrectedReachesEnd(cfg, resting, round, t);
    RemainingIsProduct(cfg, resting, round);
  }

  /** The same absence under the correction: the seventh rest ends, the
      eighth round's work and rest follow, and the workout is over with ten
      seconds to spare. */
  lemma CorrectedCascadeFinishes()
    ensures
      var cfg := Config(8, 5, 5);
      var s := State(7, 3, true, true, 0, false, Rest);
      && CascadeCorrected(cfg, true, 7, 20) == Done
      && HandleAppForegroundCorrected(cfg, s, 23000) == Outcome(Reset(cfg, s), true)
  {
    var cfg := Config(8, 5, 5);
    assert CascadeCorrected(cfg, false, 8, 15) == CascadeCorrected(cfg, true, 8, 10);
  }

  /** `handleAppForeground` built on the corrected cascade. */
  function HandleAppForegroundCorrected(cfg: Config, s: State, timeInBackground: int): (r: Outcome<State>)
    requires cfg.work >= 3 && cfg.rest >= 3
    ensures !s.isRunning || s.isPaused ==> r == Outcome(s, false)
    ensures Inv(cfg, s) && timeInBackground >= 0 ==> Inv(cfg, r.next)
  {
    if !s.isRunning || s.isPaused then Outcome(s, false)
    else
      var seconds := WholeSeconds(timeInBackground);
      if s.countdown > 0 then
        var newCountdown := Max(0, s.countdown - seconds);
        if newCountdown <= 0 then
          var base := s.(countdown := 0, mode := Work);
          var timeAfterCountdown := seconds - s.countdown;
          if timeAfterCountdown >= cfg.work then
            ApplyReached(cfg, base, CascadeCorrected(cfg, s.isResting, s.currentRound, timeAfterCountdown - cfg.work))
          else
            Outcome(base.(currentTime := Max(1, cfg.work - timeAfterCountdown)), false)
        else Outcome(s.(countdown := newCountdown), false)
      else if seconds < s.currentTime then
        Outcome(s.(currentTime := Max(1, s.currentTime - seconds)), false)
      else
        ApplyReached(cfg, s, CascadeCorrected(cfg, s.isResting, s.currentRound, seconds - s.currentTime))
  }

  /** When the corrected catch-up ends the workout: after the countdown the
      absence must cover the rest of the countdown and every round from the
      current one on; mid-workout it must cover the current phase, the rest
      of the round and every later round; in both cases less the one second
      the last rest shows before it ends. */
  lemma HandleAppForegroundCorrectedCompletes(cfg: Config, s: State, timeInBackground: int)
    requires cfg.work >= 3 && cfg.rest >= 3
    requires Inv(cfg, s) && s.isRunning && !s.isPaused && timeInBackground >= 0
    ensures
      var seconds := WholeSeconds(timeInBackground);
      var length := cfg.work + cfg.rest;
      (HandleAppForegroundCorrected(cfg, s, timeInBackground).completed <==>
        if s.countdown > 0
        then seconds - s.countdown + 1 >= (cfg.rounds - s.currentRound + 1) * length
        else seconds >= s.currentTime
             && seconds - s.currentTime + 1
                >= (cfg.rounds - s.currentRound) * length + (if s.isResting then 0 else cfg.rest))
  {
    var seconds := WholeSeconds(timeInBackground);
    var length := cfg.work + cfg.rest;
    if s.countdown > 0 {
      var after := seconds - s.countdown;
      assert (cfg.rounds - s.currentRound + 1) * length == (cfg.rounds - s.currentRound) * length + length;
      if after >= cfg.work {
        CascadeCorrectedDone(cfg, s.isResting, s.currentRound, after - cfg.work);
      } else {
        MulAtLeast(cfg.rounds - s.currentRound + 1, length);
      }
    } else if seconds >= s.currentTime {
      CascadeCorrectedDone(cfg, s.isResting, s.currentRound, seconds - s.currentTime);
    }
  }

  function ApplyReached(cfg: Config, base: State, c: Reached): Outcome<State>
  {
    match c
    case Done => Outcome(Reset(cfg, base), true)
    case At(round, resting, time) =>
      Outcome(base.(currentRound := round, isResting := resting,
                    mode := if resting then Rest else Work, currentTime := time), false)
  }
}

=== FILE: text.dfy ===
/** Decimal text as the timers render and read it: `String(n)`, JavaScript's
    `parseInt`, and the `M:SS` clock format that every timer screen and the
    number picker share. */
module Text {
  import opened Common

  predicate IsDigit(c: char)
  {
    '0' <= c <= '9'
  }

  predicate AllDigits(s: string)
  {
    forall i :: 0 <= i < |s| ==> IsDigit(s[i])
  }

  function DigitChar(d: int): (c: char)
    requires 0 <= d < 10
    ensures IsDigit(c) && c as int - '0' as int == d
  {
    (('0' as int) + d) as char
  }

  /** Reference reading of a string of digits, most significant first. */
  function DigitsValue(s: string): nat
    requires AllDigits(s)
  {
    if |s| == 0 then 0
    else DigitsValue(s[..|s| - 1]) * 10 + (s[|s| - 1] as int - '0' as int)
  }

  /** `String(n)` for a natural number: decimal, no leading zero. */
  function NatToString(n: nat): (r: string)
    ensures |r| >= 1 && AllDigits(r)
    ensures DigitsValue(r) == n
    ensures |r| == 1 <==> n < 10
    ensures n >= 10 ==> r[0] != '0'
    decreases n
  {
    if n < 10 then [DigitChar(n)]
    else
      var prefix := NatToString(n / 10);
      var r := prefix + [DigitChar(n % 10)];
      assert r[..|r| - 1] == prefix;
      r
  }

  lemma {:induction false} NatToStringTwoDigits(n: nat)
    requires 10 <= n < 100
    ensures |NatToString(n)| == 2
  {
    assert NatToString(n) == NatToString(n / 10) + [DigitChar(n % 10)];
  }

  /** `String(n)` for any integer, with a leading minus sign when negative. */
  function IntToString(n: int): (r: string)
    ensures |r| >= 1
    ensures n >= 0 ==> r == NatToString(n)
    ensures n < 0 ==> r[0] == '-' && r[1..] == NatToString(-n)
  {
    if n < 0 then "-" + NatToString(-n) else NatToString(n)
  }

  predicate IsSpace(c: char)
  {
    c == ' ' || c == '\t' || c == '\n' || c == '\r'
  }

  /** The longest prefix of `s` made of digits. */
  function DigitPrefix(s: string): (p: string)
    ensures |p| <= |s| && p == s[..|p|]
    ensures AllDigits(p)
    ensures |p| < |s| ==> !IsDigit(s[|p|])
  {
    if |s| == 0 || !IsDigit(s[0]) then []
    else [s[0]] + DigitPrefix(s[1..])
  }

  function TrimStart(s: string): (t: string)
    ensures |t| <= |s| && t == s[|s| - |t|..]
    ensures |t| > 0 ==> !IsSpace(t[0])
  {
    if |s| > 0 && IsSpace(s[0]) then TrimStart(s[1..]) else s
  }

  /** JavaScript's `parseInt(s)` in base ten: skip leading white space, read an
      optional sign, then as many digits as follow. No digit at all is NaN,
      here `None`. */
  function ParseInt(s: string): Option<int>
  {
    ParseSigned(TrimStart(s))
  }

  function ParseSigned(t: string): Option<int>
  {
    if |t| > 0 && t[0] == '-' then Negate(ParseDigits(t[1..]))
    else if |t| > 0 && t[0] == '+' then ParseDigits(t[1..])
    else ParseDigits(t)
  }

  function Negate(n: Option<int>): Option<int>
  {
    if n.Some? then Some(-n.value) else None
  }

  function ParseDigits(b: string): Option<int>
  {
    var d := DigitPrefix(b);
    if |d| == 0 then None else Some(DigitsValue(d) as int)
  }

  lemma {:induction false} DigitPrefixOfDigits(s: string)
    requires AllDigits(s)
    ensures DigitPrefix(s) == s
    decreases |s|
  {
    if |s| > 0 {
      DigitPrefixOfDigits(s[1..]);
      assert [s[0]] + s[1..] == s;
    }
  }

  lemma TrimStartNoSpace(s: string)
    requires |s| > 0 && !IsSpace(s[0])
    ensures TrimStart(s) == s
  {
  }

  lemma ParseIntOfDigits(d: string)
    requires |d| > 0 && AllDigits(d)
    ensures ParseInt(d) == Some(DigitsValue(d) as int)
  {
    DigitPrefixOfDigits(d);
    assert IsDigit(d[0]);
    TrimStartNoSpace(d);
    assert ParseSigned(d) == ParseDigits(d);
  }

  lemma ParseDigitsOfDigits(d: string)
    requires |d| > 0 && AllDigits(d)
    ensures ParseDigits(d) == Some(DigitsValue(d) as int)
  {
    DigitPrefixOfDigits(d);
  }

  lemma ParseIntOfMinus(d: string, v: int)
    requires ParseDigits(d) == Some(v)
    ensures ParseInt("-" + d) == Some(-v)
  {
    var m := "-" + d;
    assert m[1..] == d;
    TrimStartNoSpace(m);
  }

  lemma ParseIntOfNegDigits(d: string, v: int)
    requires |d| > 0 && AllDigits(d) && v == DigitsValue(d)
    ensures ParseInt("-" + d) == Some(-v)
  {
    ParseDigitsOfDigits(d);
    ParseIntOfMinus(d, v);
  }

  /** `parseInt` reads back exactly the number `String` printed. */
  lemma ParseIntOfIntToString(n: int)
    ensures ParseInt(IntToString(n)) == Some(n)
  {
    if n < 0 {
      ParseIntOfNegDigits(NatToString(-n), -n);
    } else {
      ParseIntOfDigits(NatToString(n));
    }
  }

  /** The seconds part of the clock: zero-padded to two digits. */
  function TwoDigits(sec: nat): (r: string)
    requires sec < 60
    ensures |r| == 2 && AllDigits(r) && DigitsValue(r) == sec
  {
    if sec < 10 then
      var r := "0" + NatToString(sec);
      assert r[..1] == "0";
      r
    else
      NatToStringTwoDigits(sec);
      NatToString(sec)
  }

  /** `${Math.floor(t / 60)}:${t % 60 < 10 ? '0' : ''}${t % 60}` for a
      non-negative number of seconds. */
  function FormatTime(t: nat): (r: string)
    ensures IsClockText(r, t)
  {
    var minutes := NatToString(t / 60);
    var r := minutes + ":" + TwoDigits(t % 60);
    assert r[..|r| - 3] == minutes;
    assert r[|r| - 2..] == TwoDigits(t % 60);
    r
  }

  /** Reference reading of an `M:SS` clock: minutes, a colon, then exactly two
      digits of seconds below 60. */
  function ParseClock(s: string): Option<nat>
  {
    if |s| < 4 || s[|s| - 3] != ':' then None
    else
      var minutes := s[..|s| - 3];
      var seconds := s[|s| - 2..];
      if AllDigits(minutes) && AllDigits(seconds) && DigitsValue(seconds) < 60
      then Some(DigitsValue(minutes) * 60 + DigitsValue(seconds))
      else None
  }

  /** The clock text the screens print for `t` seconds: it reads back as
      `t`, and its minutes carry no leading zero. */
  predicate IsClockText(s: string, t: nat)
  {
    ParseClock(s) == Some(t) && (|s| > 4 ==> s[0] != '0')
  }

  /** Only one text is clock text for `t`, the one `FormatTime` prints. */
  lemma ClockTextIsFormatTime(s: string, t: nat)
    requires IsClockText(s, t)
    ensures s == FormatTime(t)
  {
    var minutes := s[..|s| - 3];
    var seconds := s[|s| - 2..];
    assert s == minutes + ":" + seconds;
    DivModUnique(t, 60, DigitsValue(minutes), DigitsValue(seconds));
    CanonicalDigits(minutes, t / 60);
    TwoDigitsUnique(seconds, t % 60);
  }

  /** A string of digits without a leading zero is `String` of its value. */
  lemma {:induction false} CanonicalDigits(m: string, n: nat)
    requires |m| >= 1 && AllDigits(m) && (|m| > 1 ==> m[0] != '0')
    requires DigitsValue(m) == n
    ensures m == NatToString(n)
    decreases |m|
  {
    if |m| > 1 {
      var p := m[..|m| - 1];
      var d := m[|m| - 1] as int - '0' as int;
      assert p[0] == m[0];
      LeadingDigitPositive(p);
      DivModUnique(n, 10, DigitsValue(p), d);
      CanonicalDigits(p, n / 10);
      assert m == p + [DigitChar(d)];
    }
  }

  /** Digits that do not start with zero have a positive value. */
  lemma {:induction false} LeadingDigitPositive(p: string)
    requires |p| >= 1 && AllDigits(p) && p[0] != '0'
    ensures DigitsValue(p) >= 1
    decreases |p|
  {
    if |p| > 1 {
      var q := p[..|p| - 1];
      assert q[0] == p[0];
      LeadingDigitPositive(q);
    }
  }

  /** Two digits are fixed by their value. */
  lemma TwoDigitsUnique(ss: string, v: nat)
    requires |ss| == 2 && AllDigits(ss) && DigitsValue(ss) == v && v < 60
    ensures ss == TwoDigits(v)
  {
    var r := TwoDigits(v);
    assert ss[..1][0] == ss[0] && r[..1][0] == r[0];
    DivModUnique(v, 10, ss[0] as int - '0' as int, ss[1] as int - '0' as int);
    DivModUnique(v, 10, r[0] as int - '0' as int, r[1] as int - '0' as int);
  }
}
